=== FILE: README.md ===
# async_io core in Dafny

A model of two pieces of the `async_io` library: the poll reactor
`IOEventPool` (ioevent_driver/ioevent_poll.h) and the worker pool
`StaticThreadPool` (thread_pool/static_thread_pool.cpp). Both are written as
immutable datatypes with pure step functions.

- **results.dfy** (`Results`) has the `Option` and `Result` types. A C++ `throw`
  becomes an `Err`. An empty `std::function` becomes `None`.
- **ioevent_pool.dfy** (`IOEventPool`) is the reactor's state:
  - the append queue (`cacheForAppend_`) and the delete queue (`cacheForDelete_`);
  - the two parallel tables `fdSet_` and `userEventHandlers_`;
  - the stop flag.

  It also has subscribe, unsubscribe, the two cache merges,
  `removeUserDescriptorHandlerByIndex` and the class invariant `Valid`. `Valid`
  means both tables have the same length, row i of one belongs to row i of the
  other, and every queued record is well formed.
- **ioevent_dispatch.dfy** (`IOEventDispatch`) is one `handleNewEvents` pass.
  `ReadySlots` is a separate reference definition, and the pass is proved
  against it.
- **ioevent_loop.dfy** (`IOEventLoop`) covers the start of `runEventLoop`, one
  loop iteration, `stopEventLoop`, a whole run over a sequence of rounds, and the
  lemmas that tie several operations together.
- **static_thread_pool.dfy** (`StaticThreadPool`) covers the constructor,
  `submitTask`, the sentinel pushes of `join`, and one step of `work`. The pool
  is a queue state machine. A schedule of submissions and worker steps stands
  in for a thread interleaving.

What comes from outside the code is passed in as a parameter:

- **poll:** the `revents` that `poll` writes into each row and its return value.
- **handlers:** whether each handler answers `Open` or `Closed`, indexed by row.
- **allocation:** whether each task-queue push allocates successfully. The reactor's queue pushes always succeed in the model.

Readiness uses exact equality, `revents == events`, because that is what
ioevent_poll.h:116 does. An intersection test (`revents & events`) would fire
on POLLRDNORM|POLLHUP; the equality test does not. `IOEventLoop.CombinedMaskDoesNotFire`
shows the consequence: a Read row that is reported readable and hung up at the
same time does not fire.

`subscribeToEvent` always returns true (ioevent_poll.h:246); a failed push
would throw instead.

The worker step reads `queue_.back()` and then pops the front. The model
exposes both: the task that runs and the task that is removed. See
"## Findings".

## Model

| member | source | states |
|---|---|---|
| `IOEventPool.Init` | ioevent_driver/ioevent_poll.h:75-85 | A new reactor has empty tables and queues, is stopped, and satisfies the class invariant. |
| `IOEventPool.SubscribeToEvent` | ioevent_driver/ioevent_poll.h:222-247 | Always accepted. It pushes exactly one record onto the back of the append queue and keeps the earlier records. The record's pollfd has the descriptor, POLLRDNORM for Read or POLLWRNORM for Write, and no observed events. Its handler record is exact. The live tables, the delete queue and the flag are unchanged, and the invariant is kept. |
| `IOEventPool.UnsubscribeFromEvent` | ioevent_driver/ioevent_poll.h:250-256 | Always accepted. It only appends the descriptor to the delete queue. The tables, the append queue and the flag are untouched, and the invariant is kept. |
| `IOEventPool.MergeAppends` | ioevent_driver/ioevent_poll.h:140-153 | Empties the append queue. Both tables grow by the queued pollfds and the queued handler records, in queue order. The delete queue and the flag are unchanged. |
| `IOEventPool.MergeAppendsKeepsRows` | ioevent_driver/ioevent_poll.h:144-149 | Merging appends keeps the invariant and leaves every existing row at its index. Queued record k becomes row old-length + k in both tables. |
| `IOEventPool.RemoveAt` | ioevent_driver/ioevent_poll.h:162 | Erasing one position removes exactly that element. Earlier elements stay in place and later ones shift down by one. The multiset loses that one element. |
| `IOEventPool.RemoveByIndex` | ioevent_driver/ioevent_poll.h:156-180 | Removal succeeds exactly when the index is inside both tables. It then removes that row from both tables and shifts the rest down. When the two tables have equal length, an out-of-range index returns false and changes nothing. |
| `IOEventPool.FindHandlerIndex` | ioevent_driver/ioevent_poll.h:194-200 | Returns the lowest handler row with the descriptor. The result is -1 exactly when no handler record holds it. |
| `IOEventPool.DeleteOne` | ioevent_driver/ioevent_poll.h:187-206 | One turn of the delete loop succeeds exactly when a handler record holds the descriptor, and then it removes that first row. Otherwise it fails with an unknown-descriptor error naming that descriptor. |
| `IOEventPool.DeleteOneRemovesFirstMatch` | ioevent_driver/ioevent_poll.h:194-206 | For a known descriptor, the entries after the turn are the entries with the first matching row erased. One occurrence of the descriptor leaves the handler table. The invariant is kept. |
| `IOEventPool.MergeDeletes` | ioevent_driver/ioevent_poll.h:183-211 | On success the delete queue is empty and each table is shorter by the queue's length. On failure the error names a descriptor from the queue; `IOEventPool.MergeDeletesErrorIsFirstUnmatched` says which one. |
| `IOEventPool.MergeDeletesErrorIsFirstUnmatched` | ioevent_driver/ioevent_poll.h:187-206 | A failing merge throws for the first queued descriptor, in queue order, that has no handler row left: every descriptor before it is matched, counting repeats, and it is not. |
| `IOEventPool.MergeDeletesSucceedsIff` | ioevent_driver/ioevent_poll.h:187-206 | Draining the delete queue succeeds exactly when the queued descriptors, counted with multiplicity, are all held by handler records. |
| `IOEventPool.MergeDeletesRemovesQueued` | ioevent_driver/ioevent_poll.h:183-211 | A successful drain removes exactly the queued descriptors, with multiplicity, from the handler table. Every row left was a row before, and the invariant is kept. |
| `IOEventPool.UpdateCaches` | ioevent_driver/ioevent_poll.h:134-137 | Merges appends and then deletes. On success both queues are empty, the flag is unchanged, and the tables have old + appended - deleted rows. |
| `IOEventDispatch.ReadySlotsExactly` | ioevent_driver/ioevent_poll.h:116 | The reference list holds exactly the rows whose observed mask equals the requested mask and that have a descriptor >= 0 and a handler. Each such row appears once, in increasing order. |
| `IOEventDispatch.DispatchFrom` | ioevent_driver/ioevent_poll.h:112-130 | The dispatch loop from row i only runs handlers of rows at or after i. It keeps the table lengths, the queues and the flag. |
| `IOEventDispatch.DispatchFromFiresReady` | ioevent_driver/ioevent_poll.h:112-129 | The dispatch loop from row i runs exactly the first `eventCount` ready rows from i on, in index order. |
| `IOEventDispatch.DispatchFromRows` | ioevent_driver/ioevent_poll.h:123-127 | From row i on, a row becomes (fd -1, no handler) exactly when its handler ran and answered Closed. Every other row is unchanged. |
| `IOEventDispatch.HandleNewEvents` | ioevent_driver/ioevent_poll.h:111-131 | The handlers that run are the first `eventCount` ready rows in index order. Exactly the rows whose handler answered Closed are disabled in place. Lengths, queues and the flag are kept. |
| `IOEventDispatch.DispatchFiresOnlyReady` | ioevent_driver/ioevent_poll.h:112-129 | Every handler that runs belongs to a row with revents == events, fd >= 0 and a handler. Each runs at most once, in increasing row order, and at most `eventCount` of them run. If fewer ran, every ready row ran. |
| `IOEventDispatch.DispatchKeepsInvariant` | ioevent_driver/ioevent_poll.h:112-129 | A pass keeps the invariant and every handler record's descriptor. A dead row never fires and stays as it was. A row that ran and answered Closed is dead afterwards. |
| `IOEventLoop.StoreRevents` | ioevent_driver/ioevent_poll.h:97 | Poll writes the observed mask of every row and changes nothing else. |
| `IOEventLoop.StartEventLoop` | ioevent_driver/ioevent_poll.h:88-92 | Starting clears the stop flag and merges both queues. It succeeds exactly when every queued delete is held by a current or pending handler record, counted with multiplicity. |
| `IOEventLoop.StopEventLoop` | ioevent_driver/ioevent_poll.h:213-219 | Stopping sets the flag and merges both queues. It succeeds under the same condition as starting. |
| `IOEventLoop.LoopIteration` | ioevent_driver/ioevent_poll.h:94-107 | A negative poll result aborts with that result. Otherwise the iteration succeeds exactly when every queued delete, counting repeats, names a descriptor held by a row or a pending subscription. On success the handlers that ran are the first `result` rows whose polled `revents` equal their `events`, in index order; the queues are empty, the flag is unchanged, and the table size is old + appended - deleted. |
| `IOEventLoop.RoundStep` | ioevent_driver/ioevent_poll.h:94-107 | One round (an iteration, a subscribe, an unsubscribe or a stop) keeps the two tables the same length when it succeeds. |
| `IOEventLoop.RunLoop` | ioevent_driver/ioevent_poll.h:94-107 | The loop does nothing once the flag is set and otherwise keeps the two tables the same length. |
| `IOEventLoop.RunEventLoop` | ioevent_driver/ioevent_poll.h:87-108 | A whole run (start, then rounds) keeps the two tables the same length. |
| `IOEventLoop.StopEndsLoop` | ioevent_driver/ioevent_poll.h:213-219 | A stop request ends the run: the result is the stop's result, and no later round has any effect. |
| `IOEventLoop.UpdateCachesKeepsInvariant` | ioevent_driver/ioevent_poll.h:134-137 | Merging pending work keeps the class invariant. |
| `IOEventLoop.LoopIterationKeepsInvariant` | ioevent_driver/ioevent_poll.h:94-107 | A loop iteration keeps the class invariant. |
| `IOEventLoop.RoundStepKeepsInvariant` | ioevent_driver/ioevent_poll.h:94-107 | Every kind of round keeps the class invariant. |
| `IOEventLoop.RunLoopKeepsInvariant` | ioevent_driver/ioevent_poll.h:94-107 | A whole run of iterations, subscriptions, unsubscriptions and stops keeps the class invariant. |
| `IOEventLoop.RunEventLoopKeepsInvariant` | ioevent_driver/ioevent_poll.h:87-108 | A whole run, the merge at the start included, keeps the class invariant. |
| `IOEventLoop.SubscribeUnsubscribeRoundTrip` | ioevent_driver/ioevent_poll.h:134-137 | Subscribing a new descriptor and unsubscribing it before the next merge gives back the original tables, because appends are merged before deletes. |
| `IOEventLoop.UnsubscribeUnknownFails` | ioevent_driver/ioevent_poll.h:202-206 | Unsubscribing a descriptor that no row and no pending subscription holds makes the next merge fail with that descriptor. |
| `IOEventLoop.ClosedRowCanBeUnsubscribed` | ioevent_driver/ioevent_poll.h:123-127 | A row disabled by its Closed handler keeps its handler record's descriptor, so a later unsubscribe of that descriptor still succeeds. |
| `IOEventLoop.UpdateCachesRowsFrom` | ioevent_driver/ioevent_poll.h:134-137 | Every row after a merge was a row before it or a queued subscription. |
| `IOEventLoop.LoopIterationNeverRevives` | ioevent_driver/ioevent_poll.h:116-127 | After an iteration, every row that can still fire equals a row that was still live once the handlers had run, or a pending subscription. Together with `IOEventDispatch.DispatchKeepsInvariant`, a row its handler closed in this iteration is not live after the merge. |
| `IOEventLoop.ReadStaysSubscribed` | ioevent_driver/ioevent_poll.h:88-131 | Subscribe descriptor 5 for Read, start, and poll reports it readable with a handler that answers Open: the handler runs once and the row stays. |
| `IOEventLoop.CombinedMaskDoesNotFire` | ioevent_driver/ioevent_poll.h:116 | A Read row whose observed mask is POLLRDNORM together with another bit does not fire, because the test is equality. |
| `StaticThreadPool.Create` | thread_pool/static_thread_pool.cpp:9-19 | The pool has exactly `threadsCount` workers, all in their loop, and an empty queue. |
| `StaticThreadPool.SubmitTask` | thread_pool/static_thread_pool.cpp:21-30 | A successful push appends the task at the back, so the queue grows by exactly one. A failed push leaves the pool as it was and reports the resource-limit error with the code's message. |
| `StaticThreadPool.Join` | thread_pool/static_thread_pool.cpp:32-35 | If every push succeeds, exactly one sentinel per worker goes onto the back of the queue, the same count the constructor made. If a push fails, the call ends with that error at the first failing push, and the sentinels pushed before it stay queued. |
| `StaticThreadPool.WorkerStep` | thread_pool/static_thread_pool.cpp:44-61 | As written: the worker waits exactly when the queue is empty. Otherwise it runs the back task and removes the front task. Taking the sentinel ends its loop, and any other task leaves it running. |
| `StaticThreadPool.WorkerStepTakesBackDropsFront` | thread_pool/static_thread_pool.cpp:51-52 | As written, the task that runs and the task that is removed are the same only on a one-task queue. On a longer queue the task that ran is still at the back. |
| `StaticThreadPool.FifoWorkerStep` | thread_pool/static_thread_pool.cpp:44-61 | Corrected step: the worker runs and removes the front task. The sentinel ends its loop. |
| `StaticThreadPool.Run` | thread_pool/static_thread_pool.cpp:21-61 | Under the corrected step, for any schedule, the tasks taken followed by the queue left equal the starting queue followed by the tasks accepted. |
| `StaticThreadPool.FifoTakesInSubmissionOrder` | thread_pool/static_thread_pool.cpp:21-61 | Starting empty and under the corrected step, every interleaving takes each accepted task exactly once, in submission order. The queue holds the rest. |
| `StaticThreadPool.RunToExit` | thread_pool/static_thread_pool.cpp:44-61 | Running one worker until it exits changes no other worker. |
| `StaticThreadPool.FifoRunToExit` | thread_pool/static_thread_pool.cpp:44-61 | Under the corrected step, a worker facing jobs, then a sentinel, then more tasks runs the jobs in order, takes the sentinel, exits, and leaves the rest queued. |
| `StaticThreadPool.FifoShutdownRunsAllJobs` | thread_pool/static_thread_pool.cpp:32-61 | Under the corrected step, after jobs and then join's sentinels, the workers run every job in submission order. Each worker takes exactly one sentinel, all of them exit, and the queue ends empty. |
| `StaticThreadPool.AsWrittenDrainTakesOnlySentinels` | thread_pool/static_thread_pool.cpp:51-56 | As written, running workers facing a queue that ends in at least one sentinel each take a sentinel at once and exit. Each of them drops the front task without running it. |
| `StaticThreadPool.AsWrittenShutdownRunsNoJob` | thread_pool/static_thread_pool.cpp:32-61 | As written, after jobs and then join's sentinels, no job runs: every worker takes a sentinel and exits, and as many tasks as there were jobs stay queued. |
| `StaticThreadPool.AsWrittenRunsBackTwice` | thread_pool/static_thread_pool.cpp:51-52 | As written, one worker facing [job 1, job 2] runs job 2 twice and never runs job 1. |
| `StaticThreadPool.FifoTwoWorkersFiveJobs` | thread_pool/static_thread_pool.cpp:32-61 | Under the corrected step, two workers with five jobs and then two sentinels run all five jobs in order and both exit. |

## Left out

- Locking and threads are left out: the mutex policy, `std::thread`, the condition variable and the thread joins of `join`. The model is sequential. An interleaving is a sequence of rounds (reactor) or events (pool).
- The `poll` system call, its 100 ms timeout and its blocking are left out. Its observed masks and its return value are inputs.
- The `std::cout` diagnostics are left out. They do not affect state.
- Handler and task bodies are opaque user code. A handler is an id with an input answer. A task is `Job(id)` or the empty sentinel.
- A handler that calls `stopEventLoop` is not modelled. A stop is a round between iterations only. With `LockFreeMute` such a call would merge both queues in the middle of the dispatch loop (ioevent_poll.h:218 called from :123). That merge can move rows under the references held at :113-114, which :125-126 then write through. With `std::mutex` it would lock again the mutex held since :95.
- Throwing user code is not modelled. A handler answers only Open or Closed, and a task only runs.
  - A handler that throws at ioevent_poll.h:123 ends `handleNewEvents` and `runEventLoop` with that exception and skips the unlock at :104.
  - A task that throws at static_thread_pool.cpp:58 escapes the worker thread's function, and `std::terminate` is called.
- Handlers that call subscribe or unsubscribe while they run are not modelled separately. A handler's own subscribe or unsubscribe only pushes onto a queue, which poll and dispatch never read. It is modelled as a round placed before the iteration, and that iteration's merge picks it up, as ioevent_poll.h:106 does.
- The state after a throw inside `updateCachesForDelete` is not modelled. In the code, part of the delete queue has been drained and the locks stay held. `IOEventPool.MergeDeletes` returns only the error and its descriptor.
- `IOEventPool.RemoveByIndex`: an index beyond the end of a table is undefined behaviour in C++ (`std::advance` past `end()`). The model answers false. Callers in the code only pass indices found in the table.
- `IOEventPool.SubscribeToEvent`: an allocation failure inside the queue push would throw `bad_alloc`. It is not modelled, and the model always accepts, as the code's return value does.
- `IOEventLoop.RunLoop` states only that the lengths match and that a stopped pool is left as it is. The class invariant across the rounds is carried by `IOEventLoop.RunLoopKeepsInvariant`.
- `IOEventLoop.RunEventLoop` states only that the lengths match. The class invariant, with the merge before the loop included, is carried by `IOEventLoop.RunEventLoopKeepsInvariant`.
- `StaticThreadPool.Join` does not model waiting for the threads to finish. Draining is modelled separately by `DrainFrom` under each step discipline.
- The draft class in ioevent_driver/ioevent_pool.h is not part of this model. It is a superseded copy of the reactor that does not compile.
- main.cpp, asyncio_driver/asyncio_driver.h and asyncio_driver/asyncio_driver.cpp are not part of this model. They are the demo program and empty stubs.
- The declaration headers ioevent_driver/ioevent_driver.h and thread_pool/static_thread_pool.h are not part of this model. The model borrows only the Read/Write kind. Handler results are modelled as Open/Closed, as ioevent_poll.h uses them.

## Findings

| source | as written | input that shows it | evidently intended | confidence | as-written member | corrected member |
|---|---|---|---|---|---|---|
| thread_pool/static_thread_pool.cpp:51-52 | A worker runs `queue_.back()` but `queue_.pop()` removes the front, so the task that runs stays queued and the front task is dropped. | A queue [job 1, job 2] with one worker runs job 2 twice and never job 1. Five jobs followed by join's two sentinels with two workers: both workers take a sentinel first, and no job runs. | Run and remove the front task (FIFO), so every submitted task runs exactly once, in submission order, before the sentinels. | not executed | `StaticThreadPool.WorkerStep` (`StaticThreadPool.AsWrittenRunsBackTwice`, `StaticThreadPool.AsWrittenShutdownRunsNoJob`) | `StaticThreadPool.FifoWorkerStep` (`StaticThreadPool.FifoTakesInSubmissionOrder`, `StaticThreadPool.FifoShutdownRunsAllJobs`) |

=== FILE: ioevent_dispatch.dfy ===
/** One dispatch pass of the poll reactor (`handleNewEvents` in
    ioevent_driver/ioevent_poll.h).

    After poll has filled in every `revents`, the reactor scans the rows in
    index order while it still has events to account for.  A row fires when
    its observed mask EQUALS its requested mask, its descriptor is not
    negative and it holds a handler; each firing uses up one event.  A
    handler that reports `Closed` has its row disabled in place: the handler
    is emptied and the pollfd descriptor becomes -1, while the handler record
    keeps its descriptor.

    What each handler reports is an input, `respond(slot)`. */
module IOEventDispatch {
  import opened Results
  import opened IOEventPool

  /** The tables after a pass and the slots whose handler ran, in call order. */
  datatype Dispatched = Dispatched(pool: EventPool, fired: seq<nat>)

  /** The firing test of `handleNewEvents` for one row. */
  predicate Ready(s: EventPool, i: nat)
    requires i < |s.fdSet| && i < |s.handlers|
  {
    && s.fdSet[i].revents == s.fdSet[i].events
    && s.fdSet[i].fd >= 0
    && s.handlers[i].handler.Some?
  }

  /** A row that can never fire again, whatever poll reports for it. */
  predicate Dead(e: Entry)
  {
    e.pollFd.fd < 0 || e.record.handler == None
  }

  /** Reference definition: the ready rows from `from` on, in index order. */
  function ReadySlots(s: EventPool, from: nat): seq<nat>
    requires |s.fdSet| == |s.handlers|
    decreases |s.fdSet| - from
  {
    if from >= |s.fdSet| then []
    else (if Ready(s, from) then [from] else []) + ReadySlots(s, from + 1)
  }

  /** The first `n` elements of `xs` (all of them when there are fewer, none when n <= 0). */
  function Take(xs: seq<nat>, n: int): seq<nat>
  {
    if n <= 0 then [] else if n >= |xs| then xs else xs[..n]
  }

  /** The in-place disabling of a row whose handler reported `Closed`. */
  function CloseSlot(s: EventPool, i: nat): EventPool
    requires i < |s.fdSet| && i < |s.handlers|
  {
    s.(fdSet := s.fdSet[i := s.fdSet[i].(fd := -1)],
       handlers := s.handlers[i := s.handlers[i].(handler := None)])
  }

  /** The tables once row `i`'s handler has answered. */
  function AfterHandler(s: EventPool, i: nat, respond: nat -> DescriptorState): EventPool
    requires i < |s.fdSet| && i < |s.handlers|
  {
    if respond(i) == Closed then CloseSlot(s, i) else s
  }

  /** Rows before `from` play no part in the ready rows from `from` on. */
  lemma {:induction false} ReadySlotsFrame(s: EventPool, t: EventPool, from: nat)
    requires |s.fdSet| == |s.handlers| == |t.fdSet| == |t.handlers|
    requires forall j :: from <= j < |s.fdSet| ==> s.fdSet[j] == t.fdSet[j] && s.handlers[j] == t.handlers[j]
    ensures ReadySlots(s, from) == ReadySlots(t, from)
    decreases |s.fdSet| - from
  {
    if from < |s.fdSet| {
      ReadySlotsFrame(s, t, from + 1);
    }
  }

  /** The reference list holds exactly the ready rows from `from` on, each once, ascending. */
  lemma {:induction false} ReadySlotsExactly(s: EventPool, from: nat)
    requires |s.fdSet| == |s.handlers|
    ensures forall k :: k in ReadySlots(s, from) <==> from <= k < |s.fdSet| && Ready(s, k)
    ensures forall a, b :: 0 <= a < b < |ReadySlots(s, from)| ==> ReadySlots(s, from)[a] < ReadySlots(s, from)[b]
    decreases |s.fdSet| - from
  {
    if from < |s.fdSet| {
      ReadySlotsExactly(s, from + 1);
      var tail := ReadySlots(s, from + 1);
      if Ready(s, from) {
        var all := ReadySlots(s, from);
        assert all == [from] + tail;
        forall a, b | 0 <= a < b < |all|
          ensures all[a] < all[b]
        {
          assert all[b] == tail[b - 1];
          if a > 0 {
            assert all[a] == tail[a - 1];
          } else {
            assert tail[b - 1] in tail;
          }
        }
      }
    }
  }

  /** Taking from a list whose head is `x`. */
  lemma TakeCons(x: nat, xs: seq<nat>, n: int)
    requires n > 0
    ensures Take([x] + xs, n) == [x] + Take(xs, n - 1)
  {
    if n - 1 > 0 && n - 1 < |xs| {
      assert ([x] + xs)[..n] == [x] + xs[..n - 1];
    }
  }

  /** The row-by-row effect of a pass: exactly the fired rows whose handler
      reported `Closed` are disabled (pollfd descriptor -1, handler emptied),
      every other row is untouched. */
  predicate DisablesClosedRows(s: EventPool, r: Dispatched, respond: nat -> DescriptorState)
    requires |s.fdSet| == |s.handlers| == |r.pool.fdSet| == |r.pool.handlers|
  {
    forall j :: 0 <= j < |s.fdSet| ==>
      && r.pool.fdSet[j] == (if j in r.fired && respond(j) == Closed then s.fdSet[j].(fd := -1) else s.fdSet[j])
      && r.pool.handlers[j] == (if j in r.fired && respond(j) == Closed then s.handlers[j].(handler := None) else s.handlers[j])
  }

  /** Every element of a prefix is an element of the list. */
  lemma TakeIn(xs: seq<nat>, n: int)
    ensures forall k :: k in Take(xs, n) ==> k in xs
  {
    if 0 < n < |xs| {
      forall k | k in xs[..n]
        ensures k in xs
      {
        var a :| 0 <= a < n && xs[..n][a] == k;
        assert xs[a] == k;
      }
    }
  }

  /** The loop of `handleNewEvents` from row `i` on with `eventCount` events
      left to account for.  It only fires rows it has not passed yet. */
  function DispatchFrom(s: EventPool, i: nat, eventCount: int, respond: nat -> DescriptorState): (r: Dispatched)
    requires |s.fdSet| == |s.handlers| && i <= |s.fdSet|
    ensures |r.pool.fdSet| == |s.fdSet| && |r.pool.handlers| == |s.handlers|
    ensures r.pool.appendQueue == s.appendQueue && r.pool.deleteQueue == s.deleteQueue
    ensures r.pool.stopped == s.stopped
    ensures forall k :: k in r.fired ==> i <= k < |s.fdSet|
    decreases |s.fdSet| - i
  {
    if i == |s.fdSet| || eventCount <= 0 then
      Dispatched(s, [])
    else if Ready(s, i) then
      var rest := DispatchFrom(AfterHandler(s, i, respond), i + 1, eventCount - 1, respond);
      Dispatched(rest.pool, [i] + rest.fired)
    else
      DispatchFrom(s, i + 1, eventCount, respond)
  }

  /** The loop from row `i` fires the first `eventCount` ready rows from `i`
      on, as the reference list orders them. */
  lemma {:induction false} DispatchFromFiresReady(s: EventPool, i: nat, eventCount: int, respond: nat -> DescriptorState)
    requires |s.fdSet| == |s.handlers| && i <= |s.fdSet|
    ensures DispatchFrom(s, i, eventCount, respond).fired == Take(ReadySlots(s, i), eventCount)
    decreases |s.fdSet| - i
  {
    if i == |s.fdSet| || eventCount <= 0 {
    } else if Ready(s, i) {
      var s1 := AfterHandler(s, i, respond);
      DispatchFromFiresReady(s1, i + 1, eventCount - 1, respond);
      ReadySlotsFrame(s, s1, i + 1);
      TakeCons(i, ReadySlots(s, i + 1), eventCount);
    } else {
      DispatchFromFiresReady(s, i + 1, eventCount, respond);
    }
  }

  /** One fired row: if the rest of the pass, over the tables with row `i`
      already handled, disables exactly its own closed rows, then so does
      the pass that fires row `i` first. */
  lemma DisablesClosedRowsCons(s: EventPool, i: nat, respond: nat -> DescriptorState, rest: Dispatched)
    requires |s.fdSet| == |s.handlers| == |rest.pool.fdSet| == |rest.pool.handlers| && i < |s.fdSet|
    requires i !in rest.fired
    requires DisablesClosedRows(AfterHandler(s, i, respond), rest, respond)
    ensures DisablesClosedRows(s, Dispatched(rest.pool, [i] + rest.fired), respond)
  {
    var s1 := AfterHandler(s, i, respond);
    var r := Dispatched(rest.pool, [i] + rest.fired);
    forall j | 0 <= j < |s.fdSet|
      ensures r.pool.fdSet[j] == if j in r.fired && respond(j) == Closed then s.fdSet[j].(fd := -1) else s.fdSet[j]
      ensures r.pool.handlers[j] == if j in r.fired && respond(j) == Closed then s.handlers[j].(handler := None) else s.handlers[j]
    {
      if j == i {
        assert rest.pool.fdSet[j] == s1.fdSet[j] && rest.pool.handlers[j] == s1.handlers[j];
      } else {
        assert j in r.fired <==> j in rest.fired;
        assert s1.fdSet[j] == s.fdSet[j] && s1.handlers[j] == s.handlers[j];
      }
    }
  }

  /** Row by row, the loop disables exactly the rows it fired whose handler
      reported `Closed`, and leaves every other row as it was. */
  lemma {:induction false} DispatchFromRows(s: EventPool, i: nat, eventCount: int, respond: nat -> DescriptorState)
    requires |s.fdSet| == |s.handlers| && i <= |s.fdSet|
    ensures DisablesClosedRows(s, DispatchFrom(s, i, eventCount, respond), respond)
    decreases |s.fdSet| - i, 1
  {
    if i == |s.fdSet| || eventCount <= 0 {
      DispatchFromRowsDone(s, i, eventCount, respond);
    } else if Ready(s, i) {
      DispatchFromRowsFired(s, i, eventCount, respond);
    } else {
      DispatchFromRowsSkipped(s, i, eventCount, respond);
    }
  }

  lemma {:induction false} DispatchFromRowsFired(s: EventPool, i: nat, eventCount: int, respond: nat -> DescriptorState)
    requires |s.fdSet| == |s.handlers| && i < |s.fdSet| && eventCount > 0 && Ready(s, i)
    ensures DisablesClosedRows(s, DispatchFrom(s, i, eventCount, respond), respond)
    decreases |s.fdSet| - i, 0
  {
    var s1 := AfterHandler(s, i, respond);
    DispatchFromFires(s, i, eventCount, respond);
    DispatchFromRows(s1, i + 1, eventCount - 1, respond);
    DisablesClosedRowsCons(s, i, respond, DispatchFrom(s1, i + 1, eventCount - 1, respond));
  }

  /** A ready row with events left fires, and the pass goes on over the
      tables as its handler left them. */
  lemma DispatchFromFires(s: EventPool, i: nat, eventCount: int, respond: nat -> DescriptorState)
    requires |s.fdSet| == |s.handlers| && i < |s.fdSet| && eventCount > 0 && Ready(s, i)
    ensures var rest := DispatchFrom(AfterHandler(s, i, respond), i + 1, eventCount - 1, respond);
      DispatchFrom(s, i, eventCount, respond) == Dispatched(rest.pool, [i] + rest.fired)
  {
  }

  lemma {:induction false} DispatchFromRowsSkipped(s: EventPool, i: nat, eventCount: int, respond: nat -> DescriptorState)
    requires |s.fdSet| == |s.handlers| && i < |s.fdSet| && eventCount > 0 && !Ready(s, i)
    ensures DisablesClosedRows(s, DispatchFrom(s, i, eventCount, respond), respond)
    decreases |s.fdSet| - i, 0
  {
    var r := DispatchFrom(s, i + 1, eventCount, respond);
    DispatchFromRows(s, i + 1, eventCount, respond);
    DispatchFromSkip(s, i, eventCount, respond);
    assert DispatchFrom(s, i, eventCount, respond) == r;
  }

  lemma DispatchFromRowsDone(s: EventPool, i: nat, eventCount: int, respond: nat -> DescriptorState)
    requires |s.fdSet| == |s.handlers| && i <= |s.fdSet|
    requires i == |s.fdSet| || eventCount <= 0
    ensures DisablesClosedRows(s, DispatchFrom(s, i, eventCount, respond), respond)
  {
  }

  /** A row that is not ready is passed over without using up an event. */
  lemma DispatchFromSkip(s: EventPool, i: nat, eventCount: int, respond: nat -> DescriptorState)
    requires |s.fdSet| == |s.handlers| && i < |s.fdSet| && eventCount > 0 && !Ready(s, i)
    ensures DispatchFrom(s, i, eventCount, respond) == DispatchFrom(s, i + 1, eventCount, respond)
  {
  }

  /** `handleNewEvents`: the handlers that run are those of the first
      `eventCount` ready rows in index order; a row whose handler reports
      `Closed` is disabled in place; nothing else changes. */
  function HandleNewEvents(s: EventPool, eventCount: int, respond: nat -> DescriptorState): (r: Dispatched)
    requires |s.fdSet| == |s.handlers|
    ensures |r.pool.fdSet| == |s.fdSet| && |r.pool.handlers| == |s.handlers|
    ensures r.pool.appendQueue == s.appendQueue && r.pool.deleteQueue == s.deleteQueue
    ensures r.pool.stopped == s.stopped
    ensures r.fired == Take(ReadySlots(s, 0), eventCount)
    ensures DisablesClosedRows(s, r, respond)
  {
    DispatchFromRows(s, 0, eventCount, respond);
    DispatchFromFiresReady(s, 0, eventCount, respond);
    DispatchFrom(s, 0, eventCount, respond)
  }

  /** What a pass may call: only rows whose observed mask equals the
      requested one, with a descriptor and a handler; each at most once, in
      index order; at most `eventCount` of them; and if fewer ran, every
      ready row ran. */
  lemma DispatchFiresOnlyReady(s: EventPool, eventCount: int, respond: nat -> DescriptorState)
    requires |s.fdSet| == |s.handlers|
    ensures var r := HandleNewEvents(s, eventCount, respond);
      && (forall k :: k in r.fired ==>
            k < |s.fdSet| && s.fdSet[k].revents == s.fdSet[k].events
            && s.fdSet[k].fd >= 0 && s.handlers[k].handler.Some?)
      && (forall a, b :: 0 <= a < b < |r.fired| ==> r.fired[a] < r.fired[b])
      && |r.fired| <= (if eventCount < 0 then 0 else eventCount)
      && (|r.fired| < eventCount ==> forall k :: 0 <= k < |s.fdSet| && Ready(s, k) ==> k in r.fired)
  {
    ReadySlotsExactly(s, 0);
    var all := ReadySlots(s, 0);
    var r := HandleNewEvents(s, eventCount, respond);
    if 0 < eventCount < |all| {
      assert r.fired == all[..eventCount];
      forall k | k in r.fired
        ensures k in all
      {
        var a :| 0 <= a < |r.fired| && r.fired[a] == k;
        assert all[a] == k;
      }
    }
  }

  /** A pass keeps the class invariant and every handler record's descriptor
      (so a later unsubscribe still finds a closed row); a dead row stays dead
      and never fires; a row whose handler ran and reported `Closed` is dead
      afterwards. */
  lemma DispatchKeepsInvariant(s: EventPool, eventCount: int, respond: nat -> DescriptorState)
    requires |s.fdSet| == |s.handlers|
    ensures var r := HandleNewEvents(s, eventCount, respond);
      && (Valid(s) ==> Valid(r.pool))
      && HandlerFds(r.pool.handlers) == HandlerFds(s.handlers)
      && (forall j :: 0 <= j < |s.fdSet| && Dead(Entries(s)[j]) ==>
            j !in r.fired && Entries(r.pool)[j] == Entries(s)[j])
      && (forall j :: j in r.fired && respond(j) == Closed ==>
            j < |s.fdSet| && Dead(Entries(r.pool)[j]))
  {
    var r := HandleNewEvents(s, eventCount, respond);
    DispatchFiresOnlyReady(s, eventCount, respond);
    assert HandlerFds(r.pool.handlers) == HandlerFds(s.handlers);
  }
}

=== FILE: ioevent_loop.dfy ===
/** The shape of `runEventLoop` and `stopEventLoop` of the poll reactor
    (ioevent_driver/ioevent_poll.h), and the properties that span several
    operations: subscribe/merge round trips, unknown descriptors, and rows
    that stay disabled.

    The poll call itself is an input: a `PollAnswer` gives the observed mask
    poll stores into each row and poll's return value.  Other threads'
    calls (subscribe, unsubscribe, stop) are modelled as rounds interleaved
    between loop iterations. */
module IOEventLoop {
  import opened Results
  import opened IOEventPool
  import opened IOEventDispatch

  /** What one poll call reports: the `revents` it writes into row i, and its result. */
  datatype PollAnswer = PollAnswer(observed: nat -> Short, result: int)

  /** A loop iteration's outcome: the tables after the merges, and the rows that fired. */
  datatype Iteration = Iteration(pool: EventPool, fired: seq<nat>)

  /** One step of a run: a loop iteration, or another thread's call. */
  datatype Round =
    | PollRound(answer: PollAnswer, respond: nat -> DescriptorState)
    | SubscribeCall(fd: int, eventType: EventType, handler: Option<HandlerId>)
    | UnsubscribeCall(fd: int)
    | StopCall

  /** A row with its observed mask forgotten: what poll cannot change. */
  function Strip(e: Entry): Entry
  {
    e.(pollFd := e.pollFd.(revents := 0))
  }

  function Rows(s: EventPool): (rows: seq<Entry>)
    requires |s.fdSet| == |s.handlers|
  {
    seq(|s.fdSet|, i requires 0 <= i < |s.fdSet| => Strip(Entry(s.fdSet[i], s.handlers[i])))
  }

  function QueuedRows(q: seq<CacheRecord>): seq<Entry>
  {
    seq(|q|, i requires 0 <= i < |q| => Strip(Entry(q[i].pollFd, q[i].userEventHandler)))
  }

  /** poll writes the observed mask of every row and nothing else. */
  function StoreRevents(fdSet: seq<PollFd>, observed: nat -> Short): (r: seq<PollFd>)
    ensures |r| == |fdSet|
    ensures forall i :: 0 <= i < |r| ==>
      r[i].fd == fdSet[i].fd && r[i].events == fdSet[i].events && r[i].revents == observed(i)
  {
    seq(|fdSet|, i requires 0 <= i < |fdSet| => fdSet[i].(revents := observed(i)))
  }

  /** `runEventLoop` before its loop: clear the stop flag and merge what is pending. */
  function StartEventLoop(s: EventPool): (r: Result<EventPool, PoolError>)
    requires |s.fdSet| == |s.handlers|
    ensures r.Ok? ==> !r.value.stopped && r.value.appendQueue == [] && r.value.deleteQueue == []
    ensures r.Ok? <==>
      multiset(s.deleteQueue) <= multiset(HandlerFds(s.handlers + QueuedHandlers(s.appendQueue)))
  {
    var cleared := s.(stopped := false);
    MergeDeletesSucceedsIff(MergeAppends(cleared));
    UpdateCaches(cleared)
  }

  /** `stopEventLoop`: set the stop flag and merge what is pending. */
  function StopEventLoop(s: EventPool): (r: Result<EventPool, PoolError>)
    requires |s.fdSet| == |s.handlers|
    ensures r.Ok? ==> r.value.stopped && r.value.appendQueue == [] && r.value.deleteQueue == []
    ensures r.Ok? <==>
      multiset(s.deleteQueue) <= multiset(HandlerFds(s.handlers + QueuedHandlers(s.appendQueue)))
  {
    var flagged := s.(stopped := true);
    MergeDeletesSucceedsIff(MergeAppends(flagged));
    UpdateCaches(flagged)
  }

  /** Tables that hold the same descriptors still do once the same
      subscriptions are appended to both. */
  lemma HandlerFdsAppendFrame(a: seq<HandlerRecord>, b: seq<HandlerRecord>, q: seq<CacheRecord>)
    requires HandlerFds(a) == HandlerFds(b)
    ensures HandlerFds(a + QueuedHandlers(q)) == HandlerFds(b + QueuedHandlers(q))
  {
    assert |a| == |HandlerFds(a)| == |HandlerFds(b)| == |b|;
    forall k | 0 <= k < |a| + |q|
      ensures HandlerFds(a + QueuedHandlers(q))[k] == HandlerFds(b + QueuedHandlers(q))[k]
    {
      if k < |a| {
        assert HandlerFds(a)[k] == HandlerFds(b)[k];
      }
    }
  }

  /** One pass of the `runEventLoop` loop body: poll, abort on a negative
      result, dispatch, merge what is pending. */
  function LoopIteration(s: EventPool, answer: PollAnswer, respond: nat -> DescriptorState): (r: Result<Iteration, PoolError>)
    requires |s.fdSet| == |s.handlers|
    ensures answer.result < 0 ==> r == Err(PollFailed(answer.result))
    ensures answer.result >= 0 && r.Err? ==> r.error.UnknownDescriptor? && r.error.fd in s.deleteQueue
    ensures r.Ok? ==>
      && answer.result >= 0
      && r.value.pool.appendQueue == [] && r.value.pool.deleteQueue == []
      && r.value.pool.stopped == s.stopped
      && |r.value.pool.fdSet| == |r.value.pool.handlers| == |s.fdSet| + |s.appendQueue| - |s.deleteQueue|
      && |r.value.fired| <= answer.result
      && r.value.fired == Take(ReadySlots(s.(fdSet := StoreRevents(s.fdSet, answer.observed)), 0), answer.result)
    ensures r.Ok? <==>
      && answer.result >= 0
      && multiset(s.deleteQueue) <= multiset(HandlerFds(s.handlers + QueuedHandlers(s.appendQueue)))
  {
    if answer.result < 0 then Err(PollFailed(answer.result))
    else
      var polled := s.(fdSet := StoreRevents(s.fdSet, answer.observed));
      var d := HandleNewEvents(polled, answer.result, respond);
      DispatchFiresOnlyReady(polled, answer.result, respond);
      DispatchKeepsInvariant(polled, answer.result, respond);
      HandlerFdsAppendFrame(d.pool.handlers, s.handlers, d.pool.appendQueue);
      MergeDeletesSucceedsIff(MergeAppends(d.pool));
      match UpdateCaches(d.pool)
      case Err(e) => Err(e)
      case Ok(p) => Ok(Iteration(p, d.fired))
  }

  /** One round: a loop iteration, or a call another thread makes between
      two iterations. */
  function RoundStep(s: EventPool, round: Round): (r: Result<EventPool, PoolError>)
    requires |s.fdSet| == |s.handlers|
    ensures r.Ok? ==> |r.value.fdSet| == |r.value.handlers|
  {
    match round
    case PollRound(answer, respond) =>
      (match LoopIteration(s, answer, respond)
       case Err(e) => Err(e)
       case Ok(it) => Ok(it.pool))
    case SubscribeCall(fd, eventType, handler) => Ok(SubscribeToEvent(s, fd, eventType, handler).pool)
    case UnsubscribeCall(fd) => Ok(UnsubscribeFromEvent(s, fd).pool)
    case StopCall => StopEventLoop(s)
  }

  /** The `while (!isStoped_)` loop over a sequence of rounds: it ends when
      the stop flag is seen at the top of an iteration, when the rounds run
      out, or with the first exception. */
  function RunLoop(s: EventPool, rounds: seq<Round>): (r: Result<EventPool, PoolError>)
    requires |s.fdSet| == |s.handlers|
    ensures r.Ok? ==> |r.value.fdSet| == |r.value.handlers|
    ensures s.stopped ==> r == Ok(s)
    decreases |rounds|
  {
    if s.stopped || |rounds| == 0 then Ok(s)
    else
      match RoundStep(s, rounds[0])
      case Err(e) => Err(e)
      case Ok(next) => RunLoop(next, rounds[1..])
  }

  /** `runEventLoop`: start, then loop. */
  function RunEventLoop(s: EventPool, rounds: seq<Round>): (r: Result<EventPool, PoolError>)
    requires |s.fdSet| == |s.handlers|
    ensures r.Ok? ==> |r.value.fdSet| == |r.value.handlers|
  {
    match StartEventLoop(s)
    case Err(e) => Err(e)
    case Ok(p) => RunLoop(p, rounds)
  }

  /** A stop request ends the loop: nothing after it runs. */
  lemma StopEndsLoop(s: EventPool, rest: seq<Round>)
    requires |s.fdSet| == |s.handlers| && !s.stopped
    ensures RunLoop(s, [StopCall] + rest) == StopEventLoop(s)
  {
    assert ([StopCall] + rest)[0] == StopCall;
    assert ([StopCall] + rest)[1..] == rest;
  }

  /** Merging pending work keeps the class invariant. */
  lemma UpdateCachesKeepsInvariant(s: EventPool)
    requires Valid(s)
    ensures UpdateCaches(s).Ok? ==> Valid(UpdateCaches(s).value)
  {
    MergeAppendsKeepsRows(s);
    var appended := MergeAppends(s);
    if MergeDeletes(appended).Ok? {
      MergeDeletesRemovesQueued(appended);
    }
  }

  /** A loop iteration keeps the class invariant. */
  lemma LoopIterationKeepsInvariant(s: EventPool, answer: PollAnswer, respond: nat -> DescriptorState)
    requires Valid(s)
    ensures LoopIteration(s, answer, respond).Ok? ==> Valid(LoopIteration(s, answer, respond).value.pool)
  {
    if answer.result >= 0 {
      var polled := s.(fdSet := StoreRevents(s.fdSet, answer.observed));
      assert Valid(polled);
      DispatchKeepsInvariant(polled, answer.result, respond);
      UpdateCachesKeepsInvariant(HandleNewEvents(polled, answer.result, respond).pool);
    }
  }

  /** A whole run keeps the class invariant. */
  lemma {:induction false} RunLoopKeepsInvariant(s: EventPool, rounds: seq<Round>)
    requires Valid(s)
    ensures RunLoop(s, rounds).Ok? ==> Valid(RunLoop(s, rounds).value)
    decreases |rounds|
  {
    if !s.stopped && |rounds| > 0 {
      RoundStepKeepsInvariant(s, rounds[0]);
      if RoundStep(s, rounds[0]).Ok? {
        RunLoopKeepsInvariant(RoundStep(s, rounds[0]).value, rounds[1..]);
      }
    }
  }

  /** A whole `runEventLoop`, the merge before the loop included, keeps the
      class invariant. */
  lemma RunEventLoopKeepsInvariant(s: EventPool, rounds: seq<Round>)
    requires Valid(s)
    ensures RunEventLoop(s, rounds).Ok? ==> Valid(RunEventLoop(s, rounds).value)
  {
    UpdateCachesKeepsInvariant(s.(stopped := false));
    if StartEventLoop(s).Ok? {
      RunLoopKeepsInvariant(StartEventLoop(s).value, rounds);
    }
  }

  /** Every kind of round keeps the class invariant. */
  lemma RoundStepKeepsInvariant(s: EventPool, round: Round)
    requires Valid(s)
    ensures RoundStep(s, round).Ok? ==> Valid(RoundStep(s, round).value)
  {
    match round
    case PollRound(answer, respond) =>
      LoopIterationKeepsInvariant(s, answer, respond);
    case SubscribeCall(fd, eventType, handler) =>
    case UnsubscribeCall(fd) =>
    case StopCall =>
      UpdateCachesKeepsInvariant(s.(stopped := true));
  }

  /** Subscribing a descriptor the tables do not hold and unsubscribing it
      again, before the next merge, leaves the tables as they were: appends
      are merged before deletes, and the delete finds the new row. */
  lemma SubscribeUnsubscribeRoundTrip(s: EventPool, fd: int, eventType: EventType, handler: Option<HandlerId>)
    requires Valid(s) && s.appendQueue == [] && s.deleteQueue == []
    requires fd !in HandlerFds(s.handlers)
    ensures var subscribed := SubscribeToEvent(s, fd, eventType, handler).pool;
      UpdateCaches(UnsubscribeFromEvent(subscribed, fd).pool) == Ok(s)
  {
    var p := PollFd(fd, RequestedMask(eventType), 0);
    var h := HandlerRecord(fd, eventType, handler);
    var appended := s.(fdSet := s.fdSet + [p], handlers := s.handlers + [h], deleteQueue := [fd]);
    SubscribedThenMerged(s, fd, eventType, handler);
    DeleteOneAppended(s, p, h);
    MergeOneDelete(appended, s);
  }

  /** Deleting the descriptor of a row appended to tables that do not hold
      it removes exactly that row. */
  lemma DeleteOneAppended(s: EventPool, p: PollFd, h: HandlerRecord)
    requires |s.fdSet| == |s.handlers| && s.deleteQueue == []
    requires h.fd !in HandlerFds(s.handlers)
    ensures DeleteOne(s.(fdSet := s.fdSet + [p], handlers := s.handlers + [h]), h.fd) == Ok(s)
  {
    var popped := s.(fdSet := s.fdSet + [p], handlers := s.handlers + [h]);
    var n := |s.handlers|;
    forall j | 0 <= j < n
      ensures popped.handlers[j].fd != h.fd
    {
      assert HandlerFds(s.handlers)[j] == s.handlers[j].fd;
    }
    FindLastRow(popped.handlers, h.fd);
    RemoveLastRow(popped);
    assert popped.fdSet[..n] == s.fdSet && popped.handlers[..n] == s.handlers;
  }

  /** A delete queue of one descriptor merges to the result of its one turn. */
  lemma MergeOneDelete(t: EventPool, u: EventPool)
    requires |t.fdSet| == |t.handlers| && |t.deleteQueue| == 1 && u.deleteQueue == []
    requires DeleteOne(t.(deleteQueue := []), t.deleteQueue[0]) == Ok(u)
    ensures MergeDeletes(t) == Ok(u)
  {
    assert t.deleteQueue[1..] == [];
  }

  /** Subscribing and then unsubscribing over empty queues, then merging the
      appends: one new row at the end, the descriptor waiting for deletion. */
  lemma SubscribedThenMerged(s: EventPool, fd: int, eventType: EventType, handler: Option<HandlerId>)
    requires s.appendQueue == [] && s.deleteQueue == []
    ensures MergeAppends(UnsubscribeFromEvent(SubscribeToEvent(s, fd, eventType, handler).pool, fd).pool)
         == s.(fdSet := s.fdSet + [PollFd(fd, RequestedMask(eventType), 0)],
               handlers := s.handlers + [HandlerRecord(fd, eventType, handler)],
               deleteQueue := [fd])
  {
    var both := UnsubscribeFromEvent(SubscribeToEvent(s, fd, eventType, handler).pool, fd).pool;
    var row := both.appendQueue[0];
    assert QueuedPollFds(both.appendQueue) == [row.pollFd];
    assert QueuedHandlers(both.appendQueue) == [row.userEventHandler];
  }

  /** A descriptor held only by the last handler record is found there. */
  lemma FindLastRow(hs: seq<HandlerRecord>, fd: int)
    requires |hs| > 0 && hs[|hs| - 1].fd == fd
    requires forall j :: 0 <= j < |hs| - 1 ==> hs[j].fd != fd
    ensures FindHandlerIndex(hs, fd) == |hs| - 1
  {
    assert HandlerFds(hs)[|hs| - 1] == fd;
  }

  /** Removing the last row leaves the tables without it. */
  lemma RemoveLastRow(s: EventPool)
    requires |s.fdSet| == |s.handlers| > 0
    ensures RemoveByIndex(s, |s.handlers| - 1)
         == Removal(true, s.(fdSet := s.fdSet[..|s.fdSet| - 1], handlers := s.handlers[..|s.handlers| - 1]))
  {
  }

  /** Unsubscribing a descriptor that no row and no pending subscription
      holds makes the next merge throw. */
  lemma UnsubscribeUnknownFails(s: EventPool, fd: int)
    requires |s.fdSet| == |s.handlers| && s.deleteQueue == []
    requires fd !in HandlerFds(s.handlers + QueuedHandlers(s.appendQueue))
    ensures UpdateCaches(UnsubscribeFromEvent(s, fd).pool) == Err(UnknownDescriptor(fd))
  {
    var appended := MergeAppends(UnsubscribeFromEvent(s, fd).pool);
    assert appended.deleteQueue == [fd];
    assert appended.handlers == s.handlers + QueuedHandlers(s.appendQueue);
  }

  /** A row disabled by its handler keeps its handler record's descriptor,
      so a later unsubscribe of that descriptor merges without error. */
  lemma ClosedRowCanBeUnsubscribed(s: EventPool, eventCount: int, respond: nat -> DescriptorState, i: nat)
    requires |s.fdSet| == |s.handlers| && s.deleteQueue == []
    requires i in HandleNewEvents(s, eventCount, respond).fired && respond(i) == Closed
    ensures i < |s.handlers|
    ensures var d := HandleNewEvents(s, eventCount, respond).pool;
      UpdateCaches(UnsubscribeFromEvent(d, s.handlers[i].fd).pool).Ok?
  {
    DispatchKeepsInvariant(s, eventCount, respond);
    var d := HandleNewEvents(s, eventCount, respond).pool;
    var fd := s.handlers[i].fd;
    var u := UnsubscribeFromEvent(d, fd).pool;
    var appended := MergeAppends(u);
    assert appended.deleteQueue == [fd];
    assert appended.handlers[i] == d.handlers[i];
    assert HandlerFds(appended.handlers)[i] == fd;
    assert multiset(appended.deleteQueue) == multiset{fd};
    MergeDeletesSucceedsIff(appended);
  }

  /** Every row after a merge is a row from before it, or a queued one. */
  lemma UpdateCachesRowsFrom(s: EventPool)
    requires |s.fdSet| == |s.handlers|
    requires UpdateCaches(s).Ok?
    ensures var r := UpdateCaches(s).value;
      forall k :: 0 <= k < |r.fdSet| ==> Rows(r)[k] in Rows(s) || Rows(r)[k] in QueuedRows(s.appendQueue)
  {
    var appended := MergeAppends(s);
    var r := UpdateCaches(s).value;
    MergeDeletesRemovesQueued(appended);
    forall k | 0 <= k < |r.fdSet|
      ensures Rows(r)[k] in Rows(s) || Rows(r)[k] in QueuedRows(s.appendQueue)
    {
      var e := Entries(r)[k];
      assert e in multiset(Entries(r));
      assert e in Entries(appended);
      var j :| 0 <= j < |Entries(appended)| && Entries(appended)[j] == e;
      assert Rows(r)[k] == Strip(e);
      MergedRowOrigin(s, j);
    }
  }

  /** Row `j` after the append merge is an old row or a queued one. */
  lemma MergedRowOrigin(s: EventPool, j: nat)
    requires |s.fdSet| == |s.handlers| && j < |s.fdSet| + |s.appendQueue|
    ensures var e := Entries(MergeAppends(s))[j];
      Strip(e) in Rows(s) || Strip(e) in QueuedRows(s.appendQueue)
  {
    var e := Entries(MergeAppends(s))[j];
    if j < |s.fdSet| {
      assert Rows(s)[j] == Strip(e);
    } else {
      assert QueuedRows(s.appendQueue)[j - |s.fdSet|] == Strip(e);
    }
  }

  /** No revival: after a loop iteration every row that can still fire
      equals (apart from revents) a row that was live once the handlers had
      run, or a subscription queued before the merge.  With
      `DispatchKeepsInvariant` (a row closed by its handler is dead after the
      dispatch) this says a row closed in this iteration is not live after
      its merge. */
  lemma LoopIterationNeverRevives(s: EventPool, answer: PollAnswer, respond: nat -> DescriptorState)
    requires |s.fdSet| == |s.handlers|
    requires LoopIteration(s, answer, respond).Ok?
    ensures var polled := s.(fdSet := StoreRevents(s.fdSet, answer.observed));
      var d := HandleNewEvents(polled, answer.result, respond).pool;
      var r := LoopIteration(s, answer, respond).value.pool;
      forall k :: 0 <= k < |r.fdSet| && !Dead(Rows(r)[k]) ==>
        (exists j :: 0 <= j < |d.fdSet| && Rows(d)[j] == Rows(r)[k] && !Dead(Entries(d)[j]))
        || Rows(r)[k] in QueuedRows(s.appendQueue)
  {
    var polled := s.(fdSet := StoreRevents(s.fdSet, answer.observed));
    var d := HandleNewEvents(polled, answer.result, respond);
    var r := LoopIteration(s, answer, respond).value.pool;
    assert UpdateCaches(d.pool) == Ok(r);
    UpdateCachesRowsFrom(d.pool);
    assert QueuedRows(d.pool.appendQueue) == QueuedRows(s.appendQueue);
    forall k | 0 <= k < |r.fdSet| && !Dead(Rows(r)[k])
      ensures (exists j :: 0 <= j < |d.pool.fdSet| && Rows(d.pool)[j] == Rows(r)[k] && !Dead(Entries(d.pool)[j]))
        || Rows(r)[k] in QueuedRows(s.appendQueue)
    {
      if Rows(r)[k] in Rows(d.pool) {
        var j :| 0 <= j < |Rows(d.pool)| && Rows(d.pool)[j] == Rows(r)[k];
        assert Rows(d.pool)[j].pollFd.fd == Entries(d.pool)[j].pollFd.fd;
      }
    }
  }


  /** The scenario of a Read interest that stays open: subscribe descriptor
      5 for reading, start the loop, poll reports it readable, its handler
      answers `Open`: the handler runs once and the row stays. */
  lemma ReadStaysSubscribed(h: HandlerId)
    ensures var started := StartEventLoop(SubscribeToEvent(Init(), 5, Read, Some(h)).pool);
      && started.Ok?
      && var it := LoopIteration(started.value, PollAnswer(_ => POLLRDNORM, 1), _ => Open);
      && it.Ok?
      && it.value.fired == [0]
      && it.value.pool.handlers == [HandlerRecord(5, Read, Some(h))]
      && it.value.pool.fdSet[0].fd == 5
  {
    var s := SubscribeToEvent(Init(), 5, Read, Some(h)).pool;
    assert QueuedHandlers(s.appendQueue) == [HandlerRecord(5, Read, Some(h))];
    assert QueuedPollFds(s.appendQueue) == [PollFd(5, POLLRDNORM, 0)];
    var started := StartEventLoop(s).value;
    assert started.fdSet == [PollFd(5, POLLRDNORM, 0)];
    var polled := started.(fdSet := StoreRevents(started.fdSet, _ => POLLRDNORM));
    assert polled.fdSet == [PollFd(5, POLLRDNORM, POLLRDNORM)];
    assert Ready(polled, 0);
    assert ReadySlots(polled, 0) == [0];
  }

  /** Readiness is tested by equality: a Read row whose descriptor poll
      reports as readable and hung up at once (POLLRDNORM | POLLHUP) does
      not fire, although the observed mask contains the requested bit. */
  lemma CombinedMaskDoesNotFire(s: EventPool, respond: nat -> DescriptorState)
    requires |s.fdSet| == |s.handlers| == 1
    requires s.fdSet[0].events == POLLRDNORM && s.fdSet[0].revents == 0x050
    ensures HandleNewEvents(s, 1, respond).fired == []
  {
    assert !Ready(s, 0);
    assert ReadySlots(s, 0) == [];
  }
}

=== FILE: ioevent_pool.dfy ===
/** The table bookkeeping of the poll reactor `IOEventPool`
    (ioevent_driver/ioevent_poll.h).

    The reactor keeps two index-parallel tables: `fdSet` (the pollfd array
    handed to poll) and `handlers` (descriptor, kind and handler of every
    interest).  Callers never touch them directly: subscribing and
    unsubscribing only append to the FIFO queues `appendQueue` and
    `deleteQueue`, which the reactor thread later merges into the tables.

    Queues are sequences whose front is index 0; handlers are opaque user
    code, represented by an identity, and an empty `std::function` is `None`. */
module IOEventPool {
  import opened Results

  /** The C `short` of the pollfd `events` and `revents` fields. */
  type Short = x: int | -0x8000 <= x < 0x8000

  /** Requested-event bits, with the values Linux gives them in <poll.h>. */
  const POLLRDNORM: Short := 0x040
  const POLLWRNORM: Short := 0x100

  /** The interest kind (`IOEventDriverType`). */
  datatype EventType = Read | Write

  /** What a handler reports after it ran: keep watching, or done. */
  datatype DescriptorState = Open | Closed

  /** Identity of an opaque user handler. */
  type HandlerId = nat

  /** `struct pollfd`. */
  datatype PollFd = PollFd(fd: int, events: Short, revents: Short)

  /** `UserEventHandlerStruct`. */
  datatype HandlerRecord = HandlerRecord(fd: int, eventType: EventType, handler: Option<HandlerId>)

  /** `CacheStruct`: one pending subscription. */
  datatype CacheRecord = CacheRecord(userEventHandler: HandlerRecord, pollFd: PollFd)

  /** The reactor's whole state. */
  datatype EventPool = EventPool(
    appendQueue: seq<CacheRecord>,
    deleteQueue: seq<int>,
    fdSet: seq<PollFd>,
    handlers: seq<HandlerRecord>,
    stopped: bool)

  /** The exceptions the reactor itself raises. */
  datatype PoolError = UnknownDescriptor(fd: int) | PollFailed(result: int)

  /** One row of the two parallel tables taken together. */
  datatype Entry = Entry(pollFd: PollFd, record: HandlerRecord)

  /** The answer of `subscribeToEvent` / `unsubscribeFromEvent`. */
  datatype Ack = Ack(accepted: bool, pool: EventPool)

  /** The answer of `removeUserDescriptorHandlerByIndex`. */
  datatype Removal = Removal(removed: bool, pool: EventPool)

  function RequestedMask(t: EventType): Short
  {
    match t
    case Read => POLLRDNORM
    case Write => POLLWRNORM
  }

  /** A pollfd row matches its handler row: same requested mask, and the same
      descriptor unless the row was closed in place (descriptor -1, no handler). */
  predicate Aligned(p: PollFd, h: HandlerRecord)
  {
    && p.events == RequestedMask(h.eventType)
    && (p.fd == h.fd || (p.fd == -1 && h.handler == None))
  }

  /** The class invariant: equal lengths, index alignment, aligned pending records. */
  predicate Valid(s: EventPool)
  {
    && |s.fdSet| == |s.handlers|
    && (forall i :: 0 <= i < |s.fdSet| ==> Aligned(s.fdSet[i], s.handlers[i]))
    && (forall k :: 0 <= k < |s.appendQueue| ==>
          Aligned(s.appendQueue[k].pollFd, s.appendQueue[k].userEventHandler))
  }

  function Entries(s: EventPool): (es: seq<Entry>)
    requires |s.fdSet| == |s.handlers|
  {
    seq(|s.fdSet|, i requires 0 <= i < |s.fdSet| => Entry(s.fdSet[i], s.handlers[i]))
  }

  /** The descriptors of a handler table, in table order. */
  function HandlerFds(hs: seq<HandlerRecord>): (fds: seq<int>)
  {
    seq(|hs|, i requires 0 <= i < |hs| => hs[i].fd)
  }

  function QueuedPollFds(q: seq<CacheRecord>): seq<PollFd>
  {
    seq(|q|, i requires 0 <= i < |q| => q[i].pollFd)
  }

  function QueuedHandlers(q: seq<CacheRecord>): seq<HandlerRecord>
  {
    seq(|q|, i requires 0 <= i < |q| => q[i].userEventHandler)
  }

  /** `std::vector::erase` at one position. */
  function RemoveAt<T>(xs: seq<T>, i: nat): (ys: seq<T>)
    requires i < |xs|
    ensures |ys| == |xs| - 1
    ensures forall k {:trigger ys[k]} :: 0 <= k < |ys| ==> ys[k] == if k < i then xs[k] else xs[k + 1]
    ensures multiset(ys) == multiset(xs) - multiset{xs[i]}
  {
    assert xs == xs[..i] + [xs[i]] + xs[i + 1..];
    xs[..i] + xs[i + 1..]
  }

  /** The constructor: empty tables and queues, loop stopped. */
  function Init(): (s: EventPool)
    ensures Valid(s) && s.stopped
    ensures s.fdSet == [] && s.handlers == [] && s.appendQueue == [] && s.deleteQueue == []
  {
    EventPool([], [], [], [], true)
  }

  /** `subscribeToEvent`: builds the pollfd (descriptor, mask chosen by the
      kind, nothing observed yet) and the handler record, and queues them. */
  function SubscribeToEvent(s: EventPool, fd: int, eventType: EventType, handler: Option<HandlerId>): (r: Ack)
    ensures r.accepted
    ensures r.pool.fdSet == s.fdSet && r.pool.handlers == s.handlers
    ensures r.pool.deleteQueue == s.deleteQueue && r.pool.stopped == s.stopped
    ensures |r.pool.appendQueue| == |s.appendQueue| + 1
    ensures r.pool.appendQueue[..|s.appendQueue|] == s.appendQueue
    ensures var queued := r.pool.appendQueue[|s.appendQueue|];
      && queued.pollFd.fd == fd
      && queued.pollFd.events == (if eventType == Read then POLLRDNORM else POLLWRNORM)
      && queued.pollFd.revents == 0
      && queued.userEventHandler == HandlerRecord(fd, eventType, handler)
    ensures Valid(s) ==> Valid(r.pool)
  {
    var pollFd := PollFd(fd, RequestedMask(eventType), 0);
    var record := CacheRecord(HandlerRecord(fd, eventType, handler), pollFd);
    Ack(true, s.(appendQueue := s.appendQueue + [record]))
  }

  /** `unsubscribeFromEvent`: only queues the descriptor; whether it is
      known is decided when the queue is merged. */
  function UnsubscribeFromEvent(s: EventPool, fd: int): (r: Ack)
    ensures r.accepted
    ensures r.pool.fdSet == s.fdSet && r.pool.handlers == s.handlers
    ensures r.pool.appendQueue == s.appendQueue && r.pool.stopped == s.stopped
    ensures r.pool.deleteQueue == s.deleteQueue + [fd]
    ensures Valid(s) ==> Valid(r.pool)
  {
    Ack(true, s.(deleteQueue := s.deleteQueue + [fd]))
  }

  /** `updateCachesForAppend`: pops the append queue front to back and pushes
      each record's pollfd and handler onto the two tables. */
  function MergeAppends(s: EventPool): (r: EventPool)
    ensures r.appendQueue == []
    ensures r.fdSet == s.fdSet + QueuedPollFds(s.appendQueue)
    ensures r.handlers == s.handlers + QueuedHandlers(s.appendQueue)
    ensures r.deleteQueue == s.deleteQueue && r.stopped == s.stopped
    decreases |s.appendQueue|
  {
    if |s.appendQueue| == 0 then s
    else
      var front := s.appendQueue[0];
      var s' := s.(appendQueue := s.appendQueue[1..],
                   fdSet := s.fdSet + [front.pollFd],
                   handlers := s.handlers + [front.userEventHandler]);
      var r := MergeAppends(s');
      assert QueuedPollFds(s.appendQueue) == [front.pollFd] + QueuedPollFds(s.appendQueue[1..]);
      assert QueuedHandlers(s.appendQueue) == [front.userEventHandler] + QueuedHandlers(s.appendQueue[1..]);
      r
  }

  /** `removeUserDescriptorHandlerByIndex`: erases the row from the handler
      table, then from the pollfd table; an index at or past the end of
      either table answers false (after the handler erase, if that one
      succeeded).  An index past the end is undefined behaviour in C++ and a
      negative one is never passed; both are modelled as "not found". */
  function RemoveByIndex(s: EventPool, index: int): (r: Removal)
    ensures r.removed <==> 0 <= index < |s.handlers| && index < |s.fdSet|
    ensures r.pool.appendQueue == s.appendQueue && r.pool.deleteQueue == s.deleteQueue
    ensures r.pool.stopped == s.stopped
    ensures r.removed ==>
      && |r.pool.fdSet| == |s.fdSet| - 1
      && |r.pool.handlers| == |s.handlers| - 1
      && (forall k {:trigger r.pool.fdSet[k]} :: 0 <= k < |r.pool.fdSet| ==>
            r.pool.fdSet[k] == if k < index then s.fdSet[k] else s.fdSet[k + 1])
      && (forall k {:trigger r.pool.handlers[k]} :: 0 <= k < |r.pool.handlers| ==>
            r.pool.handlers[k] == if k < index then s.handlers[k] else s.handlers[k + 1])
    ensures !r.removed && |s.fdSet| == |s.handlers| ==> r.pool == s
  {
    if index < 0 || index >= |s.handlers| then Removal(false, s)
    else
      var s' := s.(handlers := RemoveAt(s.handlers, index));
      if index >= |s.fdSet| then Removal(false, s')
      else Removal(true, s'.(fdSet := RemoveAt(s.fdSet, index)))
  }

  /** The linear scan of `updateCachesForDelete`: the lowest index whose
      handler record holds `fd`, or -1. */
  function FindHandlerIndex(hs: seq<HandlerRecord>, fd: int): (index: int)
    ensures -1 <= index < |hs|
    ensures index >= 0 ==> hs[index].fd == fd && forall j :: 0 <= j < index ==> hs[j].fd != fd
    ensures index == -1 <==> fd !in HandlerFds(hs)
  {
    var index := FindFrom(hs, fd, 0);
    assert index == -1 ==> fd !in HandlerFds(hs);
    assert index >= 0 ==> HandlerFds(hs)[index] == fd;
    index
  }

  function FindFrom(hs: seq<HandlerRecord>, fd: int, from: nat): (index: int)
    requires from <= |hs|
    requires forall j :: 0 <= j < from ==> hs[j].fd != fd
    ensures -1 <= index < |hs|
    ensures index >= 0 ==> hs[index].fd == fd && forall j :: 0 <= j < index ==> hs[j].fd != fd
    ensures index == -1 <==> forall j :: 0 <= j < |hs| ==> hs[j].fd != fd
    decreases |hs| - from
  {
    if from == |hs| then -1
    else if hs[from].fd == fd then from
    else FindFrom(hs, fd, from + 1)
  }

  /** One turn of the `updateCachesForDelete` loop for a popped descriptor:
      find its first row and erase it from both tables, or throw. */
  function DeleteOne(s: EventPool, fd: int): (r: Result<EventPool, PoolError>)
    ensures |s.fdSet| == |s.handlers| ==> (r.Ok? <==> fd in HandlerFds(s.handlers))
    ensures r.Err? ==> r.error == UnknownDescriptor(fd)
    ensures r.Ok? ==> RemoveByIndex(s, FindHandlerIndex(s.handlers, fd)) == Removal(true, r.value)
  {
    var index := FindHandlerIndex(s.handlers, fd);
    if index < 0 then Err(UnknownDescriptor(fd))
    else
      var removal := RemoveByIndex(s, index);
      if removal.removed then Ok(removal.pool) else Err(UnknownDescriptor(fd))
  }

  /** `updateCachesForDelete`: pops the delete queue front to back, removing
      one row per descriptor; the first unknown descriptor throws. */
  function MergeDeletes(s: EventPool): (r: Result<EventPool, PoolError>)
    requires |s.fdSet| == |s.handlers|
    ensures r.Ok? ==>
      && r.value.deleteQueue == []
      && r.value.appendQueue == s.appendQueue && r.value.stopped == s.stopped
      && |r.value.fdSet| == |r.value.handlers| == |s.handlers| - |s.deleteQueue|
    ensures r.Err? ==> r.error.UnknownDescriptor? && r.error.fd in s.deleteQueue
    decreases |s.deleteQueue|
  {
    if |s.deleteQueue| == 0 then Ok(s)
    else
      var fd := s.deleteQueue[0];
      var popped := s.(deleteQueue := s.deleteQueue[1..]);
      match DeleteOne(popped, fd)
      case Err(e) => Err(e)
      case Ok(s') =>
        var r := MergeDeletes(s');
        assert r.Err? ==> r.error.fd in s.deleteQueue[1..];
        r
  }

  /** `updateCaches`: appends are merged before deletes. */
  function UpdateCaches(s: EventPool): (r: Result<EventPool, PoolError>)
    requires |s.fdSet| == |s.handlers|
    ensures r.Ok? ==>
      && r.value.appendQueue == [] && r.value.deleteQueue == []
      && r.value.stopped == s.stopped
      && |r.value.fdSet| == |r.value.handlers| == |s.handlers| + |s.appendQueue| - |s.deleteQueue|
  {
    MergeDeletes(MergeAppends(s))
  }

  /** Merging the append queue keeps the class invariant, leaves every
      existing row where it was and puts queued record k at row |tables| + k. */
  lemma MergeAppendsKeepsRows(s: EventPool)
    requires Valid(s)
    ensures var r := MergeAppends(s);
      && Valid(r)
      && Entries(r)[..|s.fdSet|] == Entries(s)
      && forall k :: 0 <= k < |s.appendQueue| ==>
           Entries(r)[|s.fdSet| + k] == Entry(s.appendQueue[k].pollFd, s.appendQueue[k].userEventHandler)
  {
    MergeAppendsAligned(s);
    MergeAppendsPrefix(s);
    MergeAppendsQueued(s);
  }

  lemma MergeAppendsAligned(s: EventPool)
    requires Valid(s)
    ensures Valid(MergeAppends(s))
  {
    var r := MergeAppends(s);
    forall i | 0 <= i < |r.fdSet|
      ensures Aligned(r.fdSet[i], r.handlers[i])
    {
      MergedRowAt(s, i);
    }
  }

  lemma MergeAppendsPrefix(s: EventPool)
    requires |s.fdSet| == |s.handlers|
    ensures Entries(MergeAppends(s))[..|s.fdSet|] == Entries(s)
  {
    var r := MergeAppends(s);
    forall i | 0 <= i < |s.fdSet|
      ensures Entries(r)[i] == Entries(s)[i]
    {
      MergedRowAt(s, i);
    }
  }

  lemma MergeAppendsQueued(s: EventPool)
    requires |s.fdSet| == |s.handlers|
    ensures forall k :: 0 <= k < |s.appendQueue| ==>
      Entries(MergeAppends(s))[|s.fdSet| + k] == Entry(s.appendQueue[k].pollFd, s.appendQueue[k].userEventHandler)
  {
    var r := MergeAppends(s);
    forall k | 0 <= k < |s.appendQueue|
      ensures Entries(r)[|s.fdSet| + k] == Entry(s.appendQueue[k].pollFd, s.appendQueue[k].userEventHandler)
    {
      MergedRowAt(s, |s.fdSet| + k);
    }
  }

  /** Row `i` after the append merge: an old row, or queued record i - |tables|. */
  lemma MergedRowAt(s: EventPool, i: nat)
    requires |s.fdSet| == |s.handlers| && i < |s.fdSet| + |s.appendQueue|
    ensures var r := MergeAppends(s);
      && r.fdSet[i] == (if i < |s.fdSet| then s.fdSet[i] else s.appendQueue[i - |s.fdSet|].pollFd)
      && r.handlers[i] == (if i < |s.fdSet| then s.handlers[i] else s.appendQueue[i - |s.fdSet|].userEventHandler)
  {
    if i >= |s.fdSet| {
      assert QueuedPollFds(s.appendQueue)[i - |s.fdSet|] == s.appendQueue[i - |s.fdSet|].pollFd;
      assert QueuedHandlers(s.appendQueue)[i - |s.fdSet|] == s.appendQueue[i - |s.fdSet|].userEventHandler;
    }
  }

  /** Row i of the entries is row i of both tables. */
  lemma EntriesRemoveAt(s: EventPool, index: int)
    requires |s.fdSet| == |s.handlers|
    requires 0 <= index < |s.handlers|
    ensures var r := RemoveByIndex(s, index).pool;
      && |r.fdSet| == |r.handlers|
      && Entries(r) == RemoveAt(Entries(s), index)
      && HandlerFds(r.handlers) == RemoveAt(HandlerFds(s.handlers), index)
  {
    var r := RemoveByIndex(s, index).pool;
    var es := RemoveAt(Entries(s), index);
    forall k | 0 <= k < |es|
      ensures Entries(r)[k] == es[k]
    {
      if k < index {
        assert es[k] == Entries(s)[k];
      } else {
        assert es[k] == Entries(s)[k + 1];
      }
    }
    HandlerFdsRemoveAt(s.handlers, r.handlers, index);
  }

  /** Erasing a handler record erases its descriptor at the same position. */
  lemma HandlerFdsRemoveAt(hs: seq<HandlerRecord>, rs: seq<HandlerRecord>, index: nat)
    requires index < |hs| && |rs| == |hs| - 1
    requires forall k {:trigger rs[k]} :: 0 <= k < |rs| ==> rs[k] == if k < index then hs[k] else hs[k + 1]
    ensures HandlerFds(rs) == RemoveAt(HandlerFds(hs), index)
  {
    var fs := RemoveAt(HandlerFds(hs), index);
    assert |HandlerFds(hs)| == |hs|;
    assert |fs| == |rs|;
    forall k | 0 <= k < |fs|
      ensures HandlerFds(rs)[k] == fs[k]
    {
      assert HandlerFds(rs)[k] == rs[k].fd;
      if k < index {
        assert fs[k] == HandlerFds(hs)[k] == hs[k].fd;
      } else {
        assert fs[k] == HandlerFds(hs)[k + 1] == hs[k + 1].fd;
      }
    }
  }

  /** Every row of a table whose entries are drawn from an aligned table is aligned. */
  lemma AlignedSubMultiset(s: EventPool, r: EventPool)
    requires |s.fdSet| == |s.handlers| && |r.fdSet| == |r.handlers|
    requires multiset(Entries(r)) <= multiset(Entries(s))
    requires forall i :: 0 <= i < |s.fdSet| ==> Aligned(s.fdSet[i], s.handlers[i])
    ensures forall i :: 0 <= i < |r.fdSet| ==> Aligned(r.fdSet[i], r.handlers[i])
  {
    forall i | 0 <= i < |r.fdSet|
      ensures Aligned(r.fdSet[i], r.handlers[i])
    {
      var e := Entries(r)[i];
      assert e in multiset(Entries(r));
      assert e in Entries(s);
      var j :| 0 <= j < |Entries(s)| && Entries(s)[j] == e;
      assert Aligned(s.fdSet[j], s.handlers[j]);
    }
  }

  /** One delete-queue turn for a known descriptor removes exactly its first
      row: one occurrence of the descriptor leaves the handler table, the
      other rows keep their order, and the invariant is kept. */
  lemma DeleteOneRemovesFirstMatch(s: EventPool, fd: int)
    requires |s.fdSet| == |s.handlers|
    requires fd in HandlerFds(s.handlers)
    ensures DeleteOne(s, fd).Ok?
    ensures var r := DeleteOne(s, fd).value;
      && |r.fdSet| == |r.handlers|
      && Entries(r) == RemoveAt(Entries(s), FindHandlerIndex(s.handlers, fd))
      && multiset(HandlerFds(r.handlers)) == multiset(HandlerFds(s.handlers)) - multiset{fd}
      && multiset(Entries(r)) <= multiset(Entries(s))
      && (Valid(s) ==> Valid(r))
  {
    var index := FindHandlerIndex(s.handlers, fd);
    EntriesRemoveAt(s, index);
    var r := DeleteOne(s, fd).value;
    assert HandlerFds(s.handlers)[index] == fd;
    if Valid(s) {
      AlignedSubMultiset(s, r);
    }
  }

  /** Taking one known element off a bag of demands: the rest fits in what
      remains exactly when the whole fitted in the original. */
  lemma MultisetTakeOne(demand: multiset<int>, supply: multiset<int>, x: int)
    requires x in supply
    ensures multiset{x} + demand <= supply <==> demand <= supply - multiset{x}
    ensures supply - multiset{x} - demand == supply - (multiset{x} + demand)
  {
  }

  /** `updateCachesForDelete` succeeds exactly when every queued descriptor
      can be matched to its own handler row, counting repeats. */
  lemma {:induction false} MergeDeletesSucceedsIff(s: EventPool)
    requires |s.fdSet| == |s.handlers|
    ensures MergeDeletes(s).Ok? <==> multiset(s.deleteQueue) <= multiset(HandlerFds(s.handlers))
    decreases |s.deleteQueue|
  {
    if |s.deleteQueue| != 0 {
      var fd := s.deleteQueue[0];
      var rest := s.deleteQueue[1..];
      var popped := s.(deleteQueue := rest);
      assert s.deleteQueue == [fd] + rest;
      assert multiset(s.deleteQueue) == multiset{fd} + multiset(rest);
      var fds := multiset(HandlerFds(s.handlers));
      if fd in HandlerFds(s.handlers) {
        DeleteOneRemovesFirstMatch(popped, fd);
        var s' := DeleteOne(popped, fd).value;
        assert MergeDeletes(s) == MergeDeletes(s');
        MergeDeletesSucceedsIff(s');
        MultisetTakeOne(multiset(rest), fds, fd);
      } else {
        assert MergeDeletes(s).Err?;
        assert fd in multiset(s.deleteQueue);
      }
    }
  }

  /** Position `k` of a delete queue is the first whose descriptor finds no
      handler row left in `fds`, counting repeats. */
  predicate FirstUnmatched(q: seq<int>, fds: multiset<int>, k: int)
  {
    0 <= k < |q| && multiset(q[..k]) <= fds && !(multiset(q[..k + 1]) <= fds)
  }

  /** Matching the front descriptor shifts the first unmatched position by one. */
  lemma FirstUnmatchedCons(q: seq<int>, fds: multiset<int>, j: int)
    requires |q| > 0 && q[0] in fds
    requires FirstUnmatched(q[1..], fds - multiset{q[0]}, j)
    ensures FirstUnmatched(q, fds, j + 1) && q[j + 1] == q[1..][j]
  {
    var rest := q[1..];
    assert q[..j + 1] == [q[0]] + rest[..j];
    assert q[..j + 2] == [q[0]] + rest[..j + 1];
    MultisetTakeOne(multiset(rest[..j]), fds, q[0]);
    MultisetTakeOne(multiset(rest[..j + 1]), fds, q[0]);
  }

  /** The first turn of `updateCachesForDelete` when the front descriptor
      has a handler row: one copy of it leaves the tables, and the rest of
      the queue is merged from there. */
  lemma MergeDeletesFront(s: EventPool) returns (s': EventPool)
    requires |s.fdSet| == |s.handlers| && |s.deleteQueue| > 0
    requires s.deleteQueue[0] in HandlerFds(s.handlers)
    ensures |s'.fdSet| == |s'.handlers| && s'.deleteQueue == s.deleteQueue[1..]
    ensures MergeDeletes(s) == MergeDeletes(s')
    ensures multiset(HandlerFds(s'.handlers)) == multiset(HandlerFds(s.handlers)) - multiset{s.deleteQueue[0]}
  {
    var popped := s.(deleteQueue := s.deleteQueue[1..]);
    DeleteOneRemovesFirstMatch(popped, s.deleteQueue[0]);
    s' := DeleteOne(popped, s.deleteQueue[0]).value;
  }

  /** The first turn of `updateCachesForDelete` when the front descriptor
      has no handler row: the merge throws for it at once. */
  lemma MergeDeletesFailsAtFront(s: EventPool)
    requires |s.fdSet| == |s.handlers| && |s.deleteQueue| > 0
    requires s.deleteQueue[0] !in HandlerFds(s.handlers)
    ensures MergeDeletes(s) == Err(UnknownDescriptor(s.deleteQueue[0]))
    ensures FirstUnmatched(s.deleteQueue, multiset(HandlerFds(s.handlers)), 0)
  {
    assert s.deleteQueue[..1] == [s.deleteQueue[0]];
  }

  /** A failing `updateCachesForDelete` throws for the first queued
      descriptor, in queue order, that no handler row is left for: every
      descriptor before it is matched, counting repeats, and it is not. */
  lemma {:induction false} MergeDeletesErrorIsFirstUnmatched(s: EventPool) returns (k: nat)
    requires |s.fdSet| == |s.handlers|
    requires MergeDeletes(s).Err?
    ensures FirstUnmatched(s.deleteQueue, multiset(HandlerFds(s.handlers)), k)
    ensures MergeDeletes(s).error == UnknownDescriptor(s.deleteQueue[k])
    decreases |s.deleteQueue|
  {
    var q := s.deleteQueue;
    if q[0] !in HandlerFds(s.handlers) {
      MergeDeletesFailsAtFront(s);
      k := 0;
    } else {
      var s' := MergeDeletesFront(s);
      var j := MergeDeletesErrorIsFirstUnmatched(s');
      FirstUnmatchedCons(q, multiset(HandlerFds(s.handlers)), j);
      k := j + 1;
    }
  }

  /** A successful `updateCachesForDelete` takes one handler row away per
      queued descriptor, keeps only rows of the old tables, and keeps the
      invariant. */
  lemma {:induction false} MergeDeletesRemovesQueued(s: EventPool)
    requires |s.fdSet| == |s.handlers|
    requires MergeDeletes(s).Ok?
    ensures var r := MergeDeletes(s).value;
      && multiset(HandlerFds(r.handlers)) == multiset(HandlerFds(s.handlers)) - multiset(s.deleteQueue)
      && multiset(Entries(r)) <= multiset(Entries(s))
      && (Valid(s) ==> Valid(r))
    decreases |s.deleteQueue|
  {
    if |s.deleteQueue| != 0 {
      var fd := s.deleteQueue[0];
      var rest := s.deleteQueue[1..];
      var s' := MergeDeletesFirstTurn(s);
      MergeDeletesRemovesQueued(s');
      var fds := multiset(HandlerFds(s.handlers));
      calc {
        multiset(HandlerFds(MergeDeletes(s).value.handlers));
        multiset(HandlerFds(s'.handlers)) - multiset(rest);
        fds - multiset{fd} - multiset(rest);
        { MultisetTakeOne(multiset(rest), fds, fd); }
        fds - multiset(s.deleteQueue);
      }
    }
  }

  /** The first turn of a successful delete merge: it removes one row of the
      front descriptor, and the merge goes on from there. */
  lemma MergeDeletesFirstTurn(s: EventPool) returns (s': EventPool)
    requires |s.fdSet| == |s.handlers| && |s.deleteQueue| > 0
    requires MergeDeletes(s).Ok?
    ensures |s'.fdSet| == |s'.handlers| && s'.deleteQueue == s.deleteQueue[1..]
    ensures MergeDeletes(s) == MergeDeletes(s')
    ensures s.deleteQueue[0] in multiset(HandlerFds(s.handlers))
    ensures multiset(s.deleteQueue) == multiset{s.deleteQueue[0]} + multiset(s.deleteQueue[1..])
    ensures multiset(HandlerFds(s'.handlers)) == multiset(HandlerFds(s.handlers)) - multiset{s.deleteQueue[0]}
    ensures multiset(Entries(s')) <= multiset(Entries(s))
    ensures Valid(s) ==> Valid(s')
  {
    var fd := s.deleteQueue[0];
    var popped := s.(deleteQueue := s.deleteQueue[1..]);
    assert s.deleteQueue == [fd] + s.deleteQueue[1..];
    assert DeleteOne(popped, fd).Ok?;
    assert fd in HandlerFds(s.handlers);
    DeleteOneRemovesFirstMatch(popped, fd);
    s' := DeleteOne(popped, fd).value;
    assert HandlerFds(popped.handlers) == HandlerFds(s.handlers);
    assert Entries(popped) == Entries(s);
    assert Valid(s) ==> Valid(popped);
  }
}

=== FILE: results.dfy ===
/** Failure-carrying results shared by the reactor and the thread pool models.
    A C++ `throw` in the modelled code becomes an `Err`; an empty
    `std::function` becomes `None`. */
module Results {

  datatype Option<+T> = None | Some(value: T)

  datatype Result<+T, +E> = Ok(value: T) | Err(error: E)
}

=== FILE: static_thread_pool.dfy ===
/** The task-queue discipline of `StaticThreadPool`
    (thread_pool/static_thread_pool.cpp), as a sequential state machine.

    The pool owns a fixed set of workers and one task queue (front at index
    0).  Submitting pushes onto the back.  A worker whose queue is empty
    waits; otherwise it takes a task, pops the queue, and either runs the
    task or, when the task is empty (the sentinel), leaves its loop.
    `join` pushes one sentinel per worker.

    As written, a worker RUNS the task at the back of the queue (`back()`)
    but REMOVES the one at the front (`pop()`).  `WorkerStep` models exactly
    that; `FifoWorkerStep` is the front-and-front discipline the pool
    evidently intends, and the drain properties are proved for it, with the
    as-written counterexamples beside them.

    Threads, the mutex and the condition variable are not modelled: a
    schedule of submissions and worker steps stands for an interleaving. */
module StaticThreadPool {
  import opened Results

  /** The `unsigned short` worker count of the constructor. */
  type UShort = x: int | 0 <= x < 0x1_0000

  /** A `std::function<void()>`: empty (the sentinel) or an opaque job. */
  datatype Task = Empty | Job(id: nat)

  datatype WorkerState = Running | Finished

  datatype ThreadPool = ThreadPool(workers: seq<WorkerState>, queue: seq<Task>)

  /** The `std::runtime_error` of a failed submission. */
  datatype PoolError = ResourceLimitExceeded(message: string)

  const SubmitFailureMessage: string :=
    "Can`t submit a new task to static thread pool. Resource limit exceeded"

  /** Which end a worker takes its task from. */
  datatype Discipline = AsWritten | Fifo

  /** One worker step: `taken` is the task the worker acts on, `removed` the
      one the pop takes off the queue. */
  datatype StepOutcome = Waiting | Stepped(taken: Task, removed: Task, pool: ThreadPool)

  /** The answer of `join`: the pool after the sentinel pushes, and the
      error if a push failed. */
  datatype Joined = Joined(pool: ThreadPool, error: Option<PoolError>)

  /** A sequence of worker steps and submissions: the final pool, the tasks
      whose submission succeeded, and the tasks taken by workers, in order. */
  datatype Trace = Trace(pool: ThreadPool, accepted: seq<Task>, taken: seq<Task>)

  /** One event of an interleaving. */
  datatype Event = Submit(task: Task, allocates: bool) | Work(worker: nat)

  function Sentinels(n: nat): (q: seq<Task>)
    ensures |q| == n && forall i :: 0 <= i < n ==> q[i] == Empty
  {
    seq(n, _ => Empty)
  }

  predicate AllRunning(ws: seq<WorkerState>)
  {
    forall w :: 0 <= w < |ws| ==> ws[w] == Running
  }

  predicate AllFinished(ws: seq<WorkerState>)
  {
    forall w :: 0 <= w < |ws| ==> ws[w] == Finished
  }

  predicate AllJobs(q: seq<Task>)
  {
    forall i :: 0 <= i < |q| ==> q[i].Job?
  }

  /** The constructor: `threadsCount` workers, all in their loop, no tasks. */
  function Create(threadsCount: UShort): (p: ThreadPool)
    ensures |p.workers| == threadsCount && AllRunning(p.workers)
    ensures p.queue == []
  {
    ThreadPool(seq(threadsCount, _ => Running), [])
  }

  /** `submitTask`: push onto the back; a failed allocation leaves the queue
      as it was and is reported as a resource-limit error. */
  function SubmitTask(p: ThreadPool, task: Task, allocates: bool): (r: Result<ThreadPool, PoolError>)
    ensures r.Ok? <==> allocates
    ensures r.Ok? ==> r.value.workers == p.workers && r.value.queue == p.queue + [task]
    ensures r.Ok? ==> |r.value.queue| == |p.queue| + 1 && r.value.queue[|p.queue|] == task
    ensures r.Err? ==> r.error == ResourceLimitExceeded(SubmitFailureMessage)
  {
    if allocates then Ok(p.(queue := p.queue + [task]))
    else Err(ResourceLimitExceeded(SubmitFailureMessage))
  }

  /** `join` up to the thread joins: one sentinel per worker, pushed through
      `submitTask`; push k succeeds when `allocates(k)`.  A failed push ends
      the call with its error, the sentinels pushed so far staying queued. */
  method Join(p: ThreadPool, allocates: nat -> bool) returns (r: Joined)
    ensures r.pool.workers == p.workers
    ensures r.error == None <==> forall k :: 0 <= k < |p.workers| ==> allocates(k)
    ensures r.error == None ==> r.pool.queue == p.queue + Sentinels(|p.workers|)
    ensures r.error != None ==>
      && r.error == Some(ResourceLimitExceeded(SubmitFailureMessage))
      && exists k :: 0 <= k < |p.workers| && !allocates(k) && r.pool.queue == p.queue + Sentinels(k)
           && (forall j :: 0 <= j < k ==> allocates(j))
  {
    var q := p;
    var i := 0;
    while i < |p.workers|
      invariant 0 <= i <= |p.workers|
      invariant q.workers == p.workers && q.queue == p.queue + Sentinels(i)
      invariant forall k :: 0 <= k < i ==> allocates(k)
    {
      match SubmitTask(q, Empty, allocates(i))
      case Err(e) =>
        return Joined(q, Some(e));
      case Ok(next) =>
        assert Sentinels(i) + [Empty] == Sentinels(i + 1);
        q := next;
      i := i + 1;
    }
    return Joined(q, None);
  }

  /** One iteration of `work` as written: wait on an empty queue; otherwise
      take the BACK task, pop the FRONT one, and leave the loop if the taken
      task is the sentinel. */
  function WorkerStep(p: ThreadPool, w: nat): (r: StepOutcome)
    requires w < |p.workers| && p.workers[w] == Running
    ensures r.Waiting? <==> p.queue == []
    ensures r.Stepped? ==>
      && r.taken == p.queue[|p.queue| - 1]
      && r.removed == p.queue[0]
      && r.pool.queue == p.queue[1..]
      && r.pool.workers == p.workers[w := if r.taken == Empty then Finished else Running]
  {
    if |p.queue| == 0 then Waiting
    else
      var task := p.queue[|p.queue| - 1];
      Stepped(task, p.queue[0],
              ThreadPool(if task == Empty then p.workers[w := Finished] else p.workers, p.queue[1..]))
  }

  /** One iteration of `work` as evidently intended: take and pop the FRONT task. */
  function FifoWorkerStep(p: ThreadPool, w: nat): (r: StepOutcome)
    requires w < |p.workers| && p.workers[w] == Running
    ensures r.Waiting? <==> p.queue == []
    ensures r.Stepped? ==>
      && r.taken == r.removed == p.queue[0]
      && r.pool.queue == p.queue[1..]
      && r.pool.workers == p.workers[w := if r.taken == Empty then Finished else Running]
  {
    if |p.queue| == 0 then Waiting
    else
      var task := p.queue[0];
      Stepped(task, task,
              ThreadPool(if task == Empty then p.workers[w := Finished] else p.workers, p.queue[1..]))
  }

  function Step(d: Discipline, p: ThreadPool, w: nat): (r: StepOutcome)
    requires w < |p.workers| && p.workers[w] == Running
    ensures r.Stepped? ==> |r.pool.workers| == |p.workers| && |r.pool.queue| == |p.queue| - 1
    ensures d == Fifo && r.Stepped? ==> r.taken == p.queue[0] && r.pool.queue == p.queue[1..]
  {
    match d
    case AsWritten => WorkerStep(p, w)
    case Fifo => FifoWorkerStep(p, w)
  }

  /** As written, whenever the queue holds more than one task the worker
      runs a task that stays queued and drops the front task without
      running it; only on a one-task queue do the two coincide. */
  lemma WorkerStepTakesBackDropsFront(p: ThreadPool, w: nat)
    requires w < |p.workers| && p.workers[w] == Running && |p.queue| > 0
    ensures var r := WorkerStep(p, w);
      && r.Stepped?
      && (|p.queue| == 1 ==> r.taken == r.removed && r.pool.queue == [])
      && (|p.queue| > 1 ==> r.pool.queue[|r.pool.queue| - 1] == r.taken)
  {
  }

  /** A schedule of submissions and worker steps; a step of a worker that
      has left its loop, or does not exist, does nothing. */
  function Run(d: Discipline, p: ThreadPool, events: seq<Event>): (t: Trace)
    ensures |t.pool.workers| == |p.workers|
    ensures d == Fifo ==> t.taken + t.pool.queue == p.queue + t.accepted
    decreases |events|
  {
    if |events| == 0 then Trace(p, [], [])
    else
      match events[0]
      case Submit(task, allocates) =>
        (match SubmitTask(p, task, allocates)
         case Err(_) => Run(d, p, events[1..])
         case Ok(next) =>
           var t := Run(d, next, events[1..]);
           Trace(t.pool, [task] + t.accepted, t.taken))
      case Work(w) =>
        if w < |p.workers| && p.workers[w] == Running then
          match Step(d, p, w)
          case Waiting => Run(d, p, events[1..])
          case Stepped(taken, _, next) =>
            assert d == Fifo ==> p.queue == [taken] + next.queue;
            var t := Run(d, next, events[1..]);
            assert d == Fifo ==> [taken] + t.taken + t.pool.queue == [taken] + (next.queue + t.accepted);
            Trace(t.pool, t.accepted, [taken] + t.taken)
        else Run(d, p, events[1..])
  }

  /** Worker `w` steps until it leaves its loop or finds the queue empty. */
  function RunToExit(d: Discipline, p: ThreadPool, w: nat): (t: Trace)
    requires w < |p.workers|
    ensures |t.pool.workers| == |p.workers|
    ensures forall v :: 0 <= v < |p.workers| && v != w ==> t.pool.workers[v] == p.workers[v]
    decreases |p.queue|
  {
    if p.workers[w] != Running then Trace(p, [], [])
    else
      match Step(d, p, w)
      case Waiting => Trace(p, [], [])
      case Stepped(taken, _, next) =>
        if taken == Empty then Trace(next, [], [taken])
        else
          var t := RunToExit(d, next, w);
          Trace(t.pool, [], [taken] + t.taken)
  }

  /** Workers `w`, `w + 1`, ... each run to exit in turn: one sequential
      schedule of the shutdown that follows `join`. */
  function DrainFrom(d: Discipline, p: ThreadPool, w: nat): (t: Trace)
    requires w <= |p.workers|
    ensures |t.pool.workers| == |p.workers|
    ensures forall v :: 0 <= v < w ==> t.pool.workers[v] == p.workers[v]
    decreases |p.workers| - w
  {
    if w == |p.workers| then Trace(p, [], [])
    else
      var t := RunToExit(d, p, w);
      var u := DrainFrom(d, t.pool, w + 1);
      Trace(u.pool, [], t.taken + u.taken)
  }

  /** Under the FIFO discipline, every interleaving takes each accepted task
      exactly once, in the order the queue received it. */
  lemma FifoTakesInSubmissionOrder(p: ThreadPool, events: seq<Event>)
    requires p.queue == []
    ensures var t := Run(Fifo, p, events);
      && t.taken == t.accepted[..|t.taken|]
      && t.pool.queue == t.accepted[|t.taken|..]
  {
    var t := Run(Fifo, p, events);
    assert t.taken + t.pool.queue == t.accepted;
  }

  /** FIFO: a running worker in front of `jobs + [sentinel] + rest` runs the
      jobs in order, takes the sentinel and leaves, leaving `rest` queued. */
  lemma {:induction false} FifoRunToExit(p: ThreadPool, w: nat, jobs: seq<Task>, rest: seq<Task>)
    requires w < |p.workers| && p.workers[w] == Running
    requires AllJobs(jobs) && p.queue == jobs + [Empty] + rest
    ensures RunToExit(Fifo, p, w) == Trace(ThreadPool(p.workers[w := Finished], rest), [], jobs + [Empty])
    decreases |jobs|
  {
    if |jobs| == 0 {
      assert p.queue[0] == Empty && p.queue[1..] == rest;
    } else {
      var next := ThreadPool(p.workers, p.queue[1..]);
      assert p.queue[0] == jobs[0] && p.queue[1..] == jobs[1..] + [Empty] + rest;
      assert FifoWorkerStep(p, w) == Stepped(jobs[0], jobs[0], next);
      FifoRunToExit(next, w, jobs[1..], rest);
      assert [jobs[0]] + (jobs[1..] + [Empty]) == jobs + [Empty];
    }
  }

  /** FIFO: workers `w` on, all still running, facing only their sentinels,
      each take one and leave. */
  lemma {:induction false} FifoDrainSentinels(p: ThreadPool, w: nat)
    requires w <= |p.workers|
    requires forall v :: w <= v < |p.workers| ==> p.workers[v] == Running
    requires p.queue == Sentinels(|p.workers| - w)
    ensures var t := DrainFrom(Fifo, p, w);
      && t.taken == Sentinels(|p.workers| - w)
      && t.pool.queue == []
      && (forall v :: w <= v < |p.workers| ==> t.pool.workers[v] == Finished)
      && (forall v :: 0 <= v < w ==> t.pool.workers[v] == p.workers[v])
    decreases |p.workers| - w
  {
    if w < |p.workers| {
      FifoRunToExit(p, w, [], p.queue[1..]);
      var t := RunToExit(Fifo, p, w);
      FifoDrainSentinels(t.pool, w + 1);
      assert [Empty] + Sentinels(|p.workers| - (w + 1)) == Sentinels(|p.workers| - w);
    }
  }

  /** FIFO shutdown: with every job submitted before `join`'s sentinels, the
      workers run all jobs in submission order, each worker takes exactly
      one sentinel and leaves, and the queue ends empty. */
  lemma FifoShutdownRunsAllJobs(p: ThreadPool, jobs: seq<Task>)
    requires |p.workers| > 0 && AllRunning(p.workers)
    requires AllJobs(jobs) && p.queue == jobs + Sentinels(|p.workers|)
    ensures var t := DrainFrom(Fifo, p, 0);
      && t.taken == jobs + Sentinels(|p.workers|)
      && t.pool.queue == []
      && AllFinished(t.pool.workers)
  {
    var n := |p.workers|;
    assert Sentinels(n) == [Empty] + Sentinels(n - 1);
    assert p.queue == jobs + [Empty] + Sentinels(n - 1);
    FifoRunToExit(p, 0, jobs, Sentinels(n - 1));
    var t := RunToExit(Fifo, p, 0);
    FifoDrainSentinels(t.pool, 1);
  }

  /** As written: workers `w` on, all running, facing a queue that ends in at
      least as many sentinels as there are such workers, each take a
      sentinel from the back at once and leave, each dropping the front
      task unrun. */
  lemma {:induction false} AsWrittenDrainTakesOnlySentinels(p: ThreadPool, w: nat)
    requires w <= |p.workers| && |p.workers| - w <= |p.queue|
    requires forall v :: w <= v < |p.workers| ==> p.workers[v] == Running
    requires forall i :: |p.queue| - (|p.workers| - w) <= i < |p.queue| ==> p.queue[i] == Empty
    ensures var t := DrainFrom(AsWritten, p, w);
      && t.taken == Sentinels(|p.workers| - w)
      && t.pool.queue == p.queue[|p.workers| - w..]
      && (forall v :: w <= v < |p.workers| ==> t.pool.workers[v] == Finished)
    decreases |p.workers| - w
  {
    var m := |p.workers| - w;
    if m > 0 {
      AsWrittenExitsAtOnce(p, w);
      var next := ThreadPool(p.workers[w := Finished], p.queue[1..]);
      AsWrittenDrainTakesOnlySentinels(next, w + 1);
      var u := DrainFrom(AsWritten, next, w + 1);
      assert DrainFrom(AsWritten, p, w) == Trace(u.pool, [], [Empty] + u.taken);
      assert [Empty] + Sentinels(m - 1) == Sentinels(m);
      assert p.queue[1..][m - 1..] == p.queue[m..];
    }
  }

  /** As written, a running worker facing a queue whose back task is the
      sentinel leaves at its first step, having popped the front task. */
  lemma AsWrittenExitsAtOnce(p: ThreadPool, w: nat)
    requires w < |p.workers| && p.workers[w] == Running
    requires |p.queue| > 0 && p.queue[|p.queue| - 1] == Empty
    ensures RunToExit(AsWritten, p, w) == Trace(ThreadPool(p.workers[w := Finished], p.queue[1..]), [], [Empty])
  {
    assert WorkerStep(p, w) == Stepped(Empty, p.queue[0], ThreadPool(p.workers[w := Finished], p.queue[1..]));
  }

  /** As written, the shutdown that follows `join` runs no job at all: each
      worker takes a sentinel from the back on its first step and leaves,
      while the pops discard the front jobs.  Jobs still queued are never
      run, since every worker has left. */
  lemma AsWrittenShutdownRunsNoJob(p: ThreadPool, jobs: seq<Task>)
    requires |p.workers| > 0 && AllRunning(p.workers)
    requires AllJobs(jobs) && p.queue == jobs + Sentinels(|p.workers|)
    ensures var t := DrainFrom(AsWritten, p, 0);
      && t.taken == Sentinels(|p.workers|)
      && AllFinished(t.pool.workers)
      && |t.pool.queue| == |jobs|
  {
    AsWrittenDrainTakesOnlySentinels(p, 0);
  }

  /** As written, one worker facing two jobs runs the second one twice and
      never runs the first. */
  lemma AsWrittenRunsBackTwice()
    ensures var t := Run(AsWritten, ThreadPool([Running], [Job(1), Job(2)]), [Work(0), Work(0)]);
      && t.taken == [Job(2), Job(2)]
      && t.pool.queue == []
  {
    var p := ThreadPool([Running], [Job(1), Job(2)]);
    var p1 := ThreadPool([Running], [Job(2)]);
    assert WorkerStep(p, 0) == Stepped(Job(2), Job(1), p1);
    assert WorkerStep(p1, 0) == Stepped(Job(2), Job(2), ThreadPool([Running], []));
    assert [Work(0), Work(0)][1..] == [Work(0)];
    assert [Work(0)][1..] == [];
  }

  /** Two workers, five jobs, then `join`'s two sentinels, under FIFO: all
      five jobs run in order. */
  lemma FifoTwoWorkersFiveJobs()
    ensures var jobs := [Job(1), Job(2), Job(3), Job(4), Job(5)];
      var t := DrainFrom(Fifo, ThreadPool([Running, Running], jobs + Sentinels(2)), 0);
      && t.taken == jobs + [Empty, Empty]
      && AllFinished(t.pool.workers)
  {
    var jobs := [Job(1), Job(2), Job(3), Job(4), Job(5)];
    FifoShutdownRunsAllJobs(ThreadPool([Running, Running], jobs + Sentinels(2)), jobs);
    assert Sentinels(2) == [Empty, Empty];
  }
}
